=== FILE: README.md ===
# ADO time-sheet pipeline — a Dafny model of its core logic

The pipeline exports Azure DevOps work items with the dates they first
entered "Doing" and "Done", joins each work item with the time-log entries a
second API holds for it, and uploads the merged file to Domo with a declared
column schema. This project models the deterministic logic inside those batch
scripts as pure Dafny functions over sequences, maps and small datatypes, and
proves what each piece promises:

- `wrappers.dfy` — `Option` (Python's `None` / a missing key) and `Result`
  (an exception that aborts a write).
- `py_strings.dfy` — the Python `str` behaviour the scripts rely on: `s[:n]`,
  the built-in `<` (lexicographic by code point, which is not Dafny's `<` on
  sequences), decimal digits, and the proof that `<` on `YYYY-MM-DD` strings
  is chronological order.
- `batching.dfy` — the 200-ID batches of the work-item batch request, and the
  proof that batching does not change what is fetched.
- `tickets.dfy` — `fetch_tickets.py`: the revision scan for the first Doing and
  Done dates, the migration-noise filter, the loop over teams, and rendering
  of the export rows.
- `time_log.py` is modelled in `time_log.dfy`: `extract_month_name` (with
  Python's `int()` and negative list indexing), the `id_to_info` map, the
  collection of the worker pool's results, and the one-to-many join that
  writes max(1, #logs) rows per work item.
- `records.dfy` — `utils.py`: `cross_join`, `flatten_list` and the recursive
  `flatten_json` of `json_to_dataframe`, over a JSON datatype whose objects
  keep their entries in insertion order.
- `upload.dfy` — `get_column_type` and the schema built from the header row
  of `upload_csv_to_domo_daily.py`.

HTTP answers are parameters: `fetchBatch` answers a workitemsbatch request,
`history` a revisions request, and `logsOf` gives the logs fetched for an ID.
The worker pool is a sequence of `(id, logs)` completions in finishing order.

Behaviour of the code worth knowing, which the model reproduces:

- The merge in `time_log.py` does not read the export file. It queries the
  IDs again and writes its own 16 columns (`CSV_FIELDNAMES`), taking only
  ProductType and State from the work items.
- A revision whose ChangedDate is an empty string fills its slot with `""`,
  because the source tests `doing_date is None`. Only a missing date leaves
  the slot open.
- Python's `int()` accepts `" 3"`, `"+3"` and `"-1"`, and negative list indices
  wrap around. So `extract_month_name("2025- 3-15")` is `"March"` and
  `extract_month_name("2025--1-05")` is `"December"`, not `""`.
- CR LF is rewritten only in string values of dict entries, not in list items
  or a top-level string. `str()` of a dict or list escapes CR and LF, so the
  test never fires for them.

## Model

The central definitions are described by the rows that name them:

- `Tickets.Keep`, on every done date, through `KeepIsLexicographic`. `KeepIsCalendarTest` reads it as calendar order on `YYYY-MM-DD` dates, and `KeepBoundaries` gives examples.
- `PyStrings.Less` through `LessIsLexicographic`.
- `Records.Flatten` through these rows:
  - `FlattenBaseCases`: leaves and empty containers, with and without dict-value cleaning.
  - `FlattenListSingle` and `FlattenListAppend`: lists.
  - `FlattenDictSnoc`: dicts.
  - `FlattenShape` and `FlattenFlatObject`: consequences.
- `Batching.BatchFetch` through its own row and `BatchingIsTransparent`.
- `TimeLog.CollectResults` through its own row and `CollectResultsOrderFree`.
- `TimeLog.MergeRun`, the whole merge, through `PoolOrderIrrelevant`, which equates it with the sequential run.

| member | source | states |
|---|---|---|
| `PyStrings.Take` | fetch_tickets.py:193 | `s[:n]` is the prefix of s of length min(n, \|s\|) |
| `PyStrings.LessIsLexicographic` | fetch_tickets.py:161 | string `<` holds exactly when a is a proper prefix of b or the first differing character of a is smaller |
| `PyStrings.IsoDateLessIsChronological` | fetch_tickets.py:161 | on two `YYYY-MM-DD` strings, `<` is (year, month, day) order |
| `Batching.Chunks` | fetch_tickets.py:140-141 | the batches concatenate back to the ID list; each holds 1 to 200 IDs; all but the last hold exactly 200; there are ceil(n/200) of them |
| `Batching.BatchBoundary` | fetch_tickets.py:140-142 | 200 IDs make one batch; 201 IDs make batches of 200 and 1 |
| `Batching.BatchFetch` | fetch_tickets.py:139-142 | no IDs send no request; 1 to 200 IDs send exactly one request with all of them |
| `Batching.BatchingIsTransparent` | time_log.py:115-117 | when the API answers a batch with the per-ID answers in order, the batched fetch equals fetching every ID alone |
| `Tickets.DatePart` | fetch_tickets.py:27-28 | a ChangedDate becomes its first min(10, length) characters; a missing one stays missing |
| `Tickets.FirstEntered` | fetch_tickets.py:30-34 | a returned date is the date part of some revision in the target state that has a ChangedDate |
| `Tickets.FirstEnteredIsFirstMatch` | fetch_tickets.py:19-36 | the first revision in list order that is in the state and has a date decides the slot; with no such revision the slot is None |
| `Tickets.FirstEnteredStable` | fetch_tickets.py:30-34 | once filled, a slot is not changed by any later revisions |
| `Tickets.GetTransitionDates` | fetch_tickets.py:19-36 | the one-pass loop returns the first Doing date and the first Done date of the reference definition |
| `Tickets.NoTransitions` | fetch_tickets.py:19-20 | a history with no Doing and no Done revision yields (None, None) |
| `Tickets.KeepIsCalendarTest` | fetch_tickets.py:159-162 | on a well-formed done date the filter drops an item exactly when it is Done on 2025-09-10 or closed before 2025-01-01 by the calendar |
| `Tickets.KeepBoundaries` | fetch_tickets.py:159-162 | Done on 2025-09-10 and any state on 2024-12-31 are dropped; not-Done on 2025-01-01 is kept; no or empty done date is always kept |
| `Tickets.KeepIsLexicographic` | fetch_tickets.py:159-162 | on any done-date string the filter drops an item exactly when the date is non-empty and is the migration date while Done, or code-point-lexicographically before "2025-01-01" |
| `Tickets.AnnotateAll` | fetch_tickets.py:147-154 | every fetched item, in fetch order, gets that team's label and its own first Doing and Done dates from its revision history |
| `Tickets.KeepOnly` | fetch_tickets.py:159-164 | every surviving item passes the filter and comes from the input |
| `Tickets.KeepOnlySelects` | fetch_tickets.py:147-164 | the survivors are an order-preserving subsequence of the annotated items, as many as pass the filter, and every passing item survives |
| `Tickets.ExportTeam` | fetch_tickets.py:147-164 | a team contributes exactly its annotated items that pass the filter: each contributed item carries the label and passes, every passing item is contributed, and the order is fetch order |
| `Tickets.TeamItems` | fetch_tickets.py:126-164 | a team whose probe or query failed contributes nothing; otherwise it contributes exactly the passing items among those fetched for its IDs in 200-ID batches, in fetch order |
| `Tickets.Export` | fetch_tickets.py:89-164 | every exported item passes the filter and carries the label of a team whose query succeeded |
| `Tickets.ExportAppend` | fetch_tickets.py:89-164 | the export of a team list is the teams' contributions in team order |
| `Tickets.ExportSingleTeam` | fetch_tickets.py:89-164 | for one team whose query succeeded, the export is exactly that team's filtered, annotated items |
| `Tickets.ExportIncludesTeam` | fetch_tickets.py:89-164 | the export is the earlier teams' items, then team k's items, then the later teams'; every item team k contributes reaches the export |
| `Tickets.SkippedTeamContributesNothing` | fetch_tickets.py:91-132 | a team whose settings probe or WIQL query failed adds no items and leaves the others unchanged |
| `Tickets.AssigneeName` | fetch_tickets.py:189-190 | AssignedTo is the displayName of an identity object, otherwise "" |
| `Tickets.RenderRow` | fetch_tickets.py:187-206 | a row exists exactly when Id, Title, State and Type are present, else the first missing one is reported; TargetDate is its first min(10, length) characters, "" when absent; ProductType is the field's value or "" when absent; absent dates become "" |
| `Tickets.RenderAll` | fetch_tickets.py:169-206 | the file gets one row per item in order, or the error of the first item that cannot be written |
| `TimeLog.ParseTwoChars` | time_log.py:77 | the parse succeeds exactly on two digits, a digit after whitespace or a sign, or a digit before whitespace. Two digits give their decimal value; a digit after whitespace or "+" gives that digit, after "-" its negation, and before whitespace that digit. Any parse lies in -9..99 |
| `TimeLog.MonthNameAt` | time_log.py:78-80 | indices 0..12 give month_name, -13..-1 wrap from the end, anything else gives "" |
| `TimeLog.ExtractMonthName` | time_log.py:73-80 | the result is "" or a month name; it is "" for input shorter than 7 characters and whenever characters 5..6 do not parse as an integer, so a name needs a digit there |
| `TimeLog.MonthOfDateField` | time_log.py:73-80 | any string of 7 or more characters with two digits at positions 5 and 6, whether a date or a longer timestamp, gets the name of that month number, and "" for 00 or 13 and above |
| `TimeLog.MonthNameDistinguishesMonths` | time_log.py:77-78 | two strings whose month fields are in 1..12 get the same name exactly when those month numbers are equal |
| `TimeLog.MonthNameExamples` | time_log.py:73-80 | "2025-03-15" gives March; "", short, 13, 00 and non-numeric months give "" |
| `TimeLog.MonthNameOfTimestamp` | time_log.py:73-80 | the timestamp "2025-03-15T08:00:00" gets March from its characters 5..6 |
| `TimeLog.MonthNameIntQuirks` | time_log.py:77-80 | a month field " 3" gives March and "-1" gives December, as int() and negative indexing make them; "3x" and a 0x1C separator before a digit give "", since int() rejects them |
| `TimeLog.IdToInfo` | time_log.py:121-127 | the map's keys are exactly the IDs of the batch records |
| `TimeLog.IdToInfoLastWins` | time_log.py:121-127 | for a duplicated ID, the last record with that ID supplies ProductType and State, with "" for a missing field |
| `TimeLog.CollectResults` | time_log.py:140-142 | the results map holds exactly the IDs of the finished futures, and the future that finished last decides its ID's logs |
| `TimeLog.CollectResultsOrderFree` | time_log.py:136-142 | whatever order the futures finish in, the results map sends each finished ID to the logs fetched for it |
| `TimeLog.HeaderListsEveryColumn` | time_log.py:28-32 | the header lists each of the 16 columns exactly once |
| `TimeLog.LogRow` | time_log.py:152-158 | a log row carries the ID, product type and state of its work item; its log columns are the log's values or ""; month is the month name of its date column |
| `TimeLog.PlaceholderRow` | time_log.py:159-165 | the placeholder carries the ID, product type and state, and every other column is "" |
| `TimeLog.RowsFor` | time_log.py:145-165 | an ID gets max(1, #logs) rows: one log row per log in API order, or only the placeholder; unknown IDs get "" product type and state |
| `TimeLog.Merge` | time_log.py:145-165 | the output has the sum over IDs of max(1, #logs) rows |
| `TimeLog.MergeAppend` | time_log.py:145-152 | rows follow the ID order: the rows of a concatenation are the rows of its parts in order |
| `TimeLog.MergeCoversIds` | time_log.py:145-165 | the workItemId values of the output are exactly the input IDs |
| `TimeLog.PoolOrderIrrelevant` | time_log.py:134-165 | for any finishing order of the pool the rows equal those of fetching each ID in turn |
| `Records.CrossJoin` | utils.py:81-89 | with an empty right side the left rows come back unchanged; otherwise there are \|left\| × \|right\| rows |
| `Records.CrossJoinAt` | utils.py:83-88 | row i·\|right\|+j has the keys of left[i] and right[j], right[j]'s values on shared keys and left[i]'s elsewhere |
| `Records.RankRows` | utils.py:92-98 | the rows come out in order, each with Rank = position + 1 and its other keys unchanged |
| `Records.ReplaceCrLf` | utils.py:106-107 | the result contains no CR LF, is not longer than the input, and equals it when it had none |
| `Records.ReplaceAt` | utils.py:106-107 | the first CR LF of a string becomes "-", the characters before it are kept, and the replacement continues after it |
| `Records.CleanValue` | utils.py:106-107 | a non-string passes through unchanged; a string is rewritten by the CR LF replacement and then holds no CR LF |
| `Records.FlattenBaseCases` | utils.py:102-120 | a leaf gives the one row {prev: leaf}, with a string under a dict key CR-LF-cleaned and any other leaf unchanged; an empty dict gives [{}]; an empty list gives [] |
| `Records.FlattenListSingle` | utils.py:114-117 | a one-item list yields that item's rows, flattened under the list's heading and numbered from 1 under Rank |
| `Records.FlattenListAppend` | utils.py:114-117 | the rows of a list are the rows of its items concatenated in list order |
| `Records.FlattenDictSnoc` | utils.py:103-112 | the rows of a dict are the rows of its earlier entries cross-joined with the rows of its last value, flattened under the joined heading with dict-value cleaning |
| `Records.FlattenShape` | utils.py:102-120 | the flattening has RowCount rows (1 per leaf, sum over lists, product over dicts with empty factors as 1), and every value in it is a leaf |
| `Records.FlattenFlatObject` | utils.py:103-112 | a dict of leaves gives one row whose keys are prev_key (key at the top) and whose values are the cleaned leaves |
| `Records.NestedKeysJoined` | utils.py:109-112 | {"fields": {"System.Id": 7}} flattens to the one row {"fields_System.Id": 7} |
| `Records.CrLfOnlyInDictValues` | utils.py:105-117 | CR LF in a dict's string value becomes "-", while the same string as a list item is kept and ranked |
| `Upload.GetColumnType` | upload_csv_to_domo_daily.py:27-31 | DATETIME exactly when the name is in the date-time set, STRING exactly when it is not |
| `Upload.Schema` | upload_csv_to_domo_daily.py:46 | one schema column per header entry, each typed by get_column_type of its header name |
| `Upload.SchemaKeepsHeader` | upload_csv_to_domo_daily.py:46 | the schema's column names are the header, in header order |
| `Upload.TimesheetSchema` | upload_csv_to_domo_daily.py:16 | for the merged time-sheet header only date, createdOn, updatedOn and deletedOn are DATETIME |

## Left out

- Failure of the batch request (fetch_tickets.py:142) or of a revisions request (fetch_tickets.py:150) is not modelled. They sit outside any `try`, so either one aborts the whole export, whereas a failed probe or WIQL query only skips its team.
- `TimeLog.PoolOrderIrrelevant` assumes each ID's fetch returns the same logs every time (`logsOf` is a function). If an ID appears twice in `all_ids` and one of its two fetches fails open, the source's rows depend on which future finished last.
- HTTP requests are parameters of the model, not modelled: `safe_request`, the WIQL query, the team-settings probe, the batch and revisions requests, and `fetch_time_logs_for_work_item` (time_log.py:83-99) with its 404 and exception fail-open. A failed probe or query is the `None` IDs of a `TeamQuery`. The fail-open fetch is folded into `logsOf`.
- `get_all_work_item_ids` and `get_work_items_batch` (time_log.py:46-70) are network calls that raise on failure. Their answers are the `ids` and `fetchBatch` inputs.
- The ThreadPoolExecutor (time_log.py:138-142) is concurrency. Its effect is modelled as a finishing order of `(id, logs)` completions.
- CSV reading and writing, `open`, `get_new_column` (upload_csv_to_domo_daily.py:20-23) and the pandas `DataFrame` of `json_to_dataframe` (utils.py:122) are file I/O and a library. Rows are records or maps. The DataFrame's column order and `dtype=str` conversion are not modelled.
- A write that fails part-way leaves the rows before the failing one in the file. `Tickets.RenderAll` returns only the error.
- `send_email`, `send_email_error`, `get_access_token`, `token_is_expired`, and the pydomo `Domo`, `ds.update` and `data_import_from_file` calls are not modelled. They are SMTP, OAuth, the wall clock and a vendor SDK.
- `main.py` is orchestration with a blanket exception handler. It imports `merge_work_items_with_logs`, which `time_log.py` does not define.
- Building the WIQL query text and the base64 auth header is glue around external services, so it is not modelled.
- `TimeLog.ParseTwoChars`: Python's `int()` also accepts non-ASCII Unicode decimal digits. The model treats them as non-numeric.
- `TimeLog.MonthNames` assumes the C/English locale for `calendar.month_name`.
- A log entry is modelled as the text of its CSV cells, with null read as "". A non-string `date`, which makes `len()` raise TypeError in `extract_month_name`, is not modelled.
- A time-log batch record without `fields['System.Id']` (time_log.py:124), or an export item without its top-level `id` or `fields` (fetch_tickets.py:148, 156, 188), raises KeyError in the source. The model's types require those fields. A missing `System.Id` inside an export item's fields is modelled, as `RenderRow`'s `MissingId`.
- `flatten_list` on a list or scalar element raises TypeError at `elem['Rank']`, so its nested-list branch never yields. `Records.RankRows` is modelled on dict rows only, the only kind `flatten_json` produces.
- JSON numbers are modelled as `real`. Python's int/float distinction does not affect the flattening.
- `cross_join` deep-copies rows so that no input row is mutated. Dafny maps are immutable values, so this holds in the model by construction and has no separate lemma.

=== FILE: batching.dfy ===
/**
 * Batched fetching of work-item fields: both scripts walk their ID list in
 * slices of at most 200 (the tracking API's per-request ceiling) and append
 * every batch's answer to one result list.
 */
module Batching {

  /** The tracking API's ceiling on IDs per batch request. */
  const BatchSize: nat := 200

  /** Concatenation of a list of lists, in order. */
  function Concat<T>(ss: seq<seq<T>>): seq<T>
  {
    if |ss| == 0 then [] else ss[0] + Concat(ss[1..])
  }

  lemma {:induction false} ConcatAppend<T>(a: seq<seq<T>>, b: seq<seq<T>>)
    ensures Concat(a + b) == Concat(a) + Concat(b)
  {
    if |a| == 0 {
      assert a + b == b;
    } else {
      assert (a + b)[1..] == a[1..] + b;
      ConcatAppend(a[1..], b);
    }
  }

  /** Consecutive slices of n elements each, the last one possibly shorter. */
  function Chunks<T>(s: seq<T>, n: nat): (r: seq<seq<T>>)
    requires n > 0
    ensures Concat(r) == s
    ensures forall k :: 0 <= k < |r| ==> 0 < |r[k]| <= n
    ensures forall k :: 0 <= k < |r| - 1 ==> |r[k]| == n
    ensures |r| * n >= |s| > (|r| - 1) * n
    decreases |s|
  {
    if |s| == 0 then []
    else if |s| <= n then [s]
    else [s[..n]] + Chunks(s[n..], n)
  }

  /** Exactly 200 IDs go out in one request; 201 go out as 200 and then 1. */
  lemma BatchBoundary<T>(s: seq<T>)
    ensures |s| == 200 ==> Chunks(s, BatchSize) == [s]
    ensures |s| == 201 ==> Chunks(s, BatchSize) == [s[..200], s[200..]]
  {
    if |s| == 201 {
      assert Chunks(s[200..], BatchSize) == [s[200..]];
    }
  }

  /** Each ID list applied to `one` item-by-item, answers concatenated in order. */
  function FlatMap<T, D>(ids: seq<T>, one: T -> seq<D>): seq<D>
  {
    if |ids| == 0 then [] else one(ids[0]) + FlatMap(ids[1..], one)
  }

  lemma {:induction false} FlatMapAppend<T, D>(a: seq<T>, b: seq<T>, one: T -> seq<D>)
    ensures FlatMap(a + b, one) == FlatMap(a, one) + FlatMap(b, one)
  {
    if |a| == 0 {
      assert a + b == b;
    } else {
      assert (a + b)[1..] == a[1..] + b;
      FlatMapAppend(a[1..], b, one);
    }
  }

  /** One request per batch, answers in batch order. */
  function FetchEach<T, D>(batches: seq<seq<T>>, fetch: seq<T> -> seq<D>): seq<D>
  {
    if |batches| == 0 then [] else fetch(batches[0]) + FetchEach(batches[1..], fetch)
  }

  /** The answers to the 200-ID batches of `ids`, concatenated in batch order. */
  function BatchFetch<T, D>(ids: seq<T>, fetch: seq<T> -> seq<D>): (r: seq<D>)
    ensures |ids| == 0 ==> r == []
    ensures 0 < |ids| <= BatchSize ==> r == fetch(ids)
  {
    assert 0 < |ids| <= BatchSize ==> FetchEach([ids], fetch) == fetch(ids) + FetchEach([ids][1..], fetch) == fetch(ids) + [];
    FetchEach(Chunks(ids, BatchSize), fetch)
  }

  lemma {:induction false} FetchEachPerItem<T, D>(batches: seq<seq<T>>, fetch: seq<T> -> seq<D>, one: T -> seq<D>)
    requires forall b :: fetch(b) == FlatMap(b, one)
    ensures FetchEach(batches, fetch) == FlatMap(Concat(batches), one)
  {
    if |batches| > 0 {
      FetchEachPerItem(batches[1..], fetch, one);
      FlatMapAppend(batches[0], Concat(batches[1..]), one);
    }
  }

  /**
   * Batching is invisible in the result: when the API answers a batch with
   * the per-ID answers in request order, the batched fetch equals asking for
   * every ID on its own.
   */
  lemma BatchingIsTransparent<T, D>(ids: seq<T>, fetch: seq<T> -> seq<D>, one: T -> seq<D>)
    requires forall b :: fetch(b) == FlatMap(b, one)
    ensures BatchFetch(ids, fetch) == FlatMap(ids, one)
  {
    FetchEachPerItem(Chunks(ids, BatchSize), fetch, one);
  }
}

=== FILE: py_strings.dfy ===
/**
 * Python `str` semantics that the scripts rely on: slicing a prefix, the
 * built-in `<` comparison (lexicographic by code point), decimal digits, and
 * what that comparison means on `YYYY-MM-DD` date strings.
 */
module PyStrings {

  /** Python's `s[:n]` for a non-negative n: the first n characters, or all of s. */
  function Take(s: string, n: nat): (r: string)
    ensures |r| == if |s| < n then |s| else n
    ensures r <= s
  {
    if |s| <= n then s else s[..n]
  }

  /** Python's `a < b` on strings, walking both from the front. */
  predicate Less(a: string, b: string)
    decreases |a|
  {
    if |a| == 0 then |b| > 0
    else if |b| == 0 then false
    else if a[0] != b[0] then a[0] < b[0]
    else Less(a[1..], b[1..])
  }

  /** a and b agree on their first k characters and position k decides a < b. */
  ghost predicate LessAt(a: string, b: string, k: nat)
  {
    && k <= |a| && k <= |b|
    && a[..k] == b[..k]
    && ((k == |a| && k < |b|) || (k < |a| && k < |b| && a[k] < b[k]))
  }

  /** Reference definition of lexicographic order: a proper prefix, or a smaller first differing character. */
  ghost predicate LexLess(a: string, b: string)
  {
    exists k: nat :: LessAt(a, b, k)
  }

  /** The front-to-back walk decides exactly the lexicographic order. */
  lemma {:induction false} LessIsLexicographic(a: string, b: string)
    ensures Less(a, b) <==> LexLess(a, b)
    decreases |a|
  {
    if |a| == 0 {
      if |b| > 0 {
        assert LessAt(a, b, 0);
      }
    } else if |b| == 0 {
    } else if a[0] != b[0] {
      if a[0] < b[0] {
        assert LessAt(a, b, 0);
      }
      forall k: nat | 0 < k <= |a| && k <= |b|
        ensures a[..k] != b[..k]
      {
        assert a[..k][0] == a[0] && b[..k][0] == b[0];
      }
    } else {
      LessIsLexicographic(a[1..], b[1..]);
      if Less(a, b) {
        var k: nat :| LessAt(a[1..], b[1..], k);
        assert a[..k + 1] == [a[0]] + a[1..][..k];
        assert b[..k + 1] == [b[0]] + b[1..][..k];
        assert LessAt(a, b, k + 1);
      }
      if LexLess(a, b) {
        var k: nat :| LessAt(a, b, k);
        assert k > 0;
        assert a[1..][..k - 1] == a[..k][1..];
        assert b[1..][..k - 1] == b[..k][1..];
        assert LessAt(a[1..], b[1..], k - 1);
      }
    }
  }

  /** Comparing two strings is comparing a common-length head first, then the rests. */
  lemma {:induction false} LessSplit(a: string, b: string, k: nat)
    requires k <= |a| && k <= |b|
    ensures Less(a, b) <==> Less(a[..k], b[..k]) || (a[..k] == b[..k] && Less(a[k..], b[k..]))
    decreases k
  {
    if k == 0 {
      assert a[..0] == b[..0];
      assert a[0..] == a && b[0..] == b;
    } else if a[0] != b[0] {
      assert a[..k][0] == a[0] && b[..k][0] == b[0];
    } else {
      LessSplit(a[1..], b[1..], k - 1);
      assert a[1..][..k - 1] == a[..k][1..];
      assert b[1..][..k - 1] == b[..k][1..];
      assert a[1..][k - 1..] == a[k..];
      assert b[1..][k - 1..] == b[k..];
      assert a[..k][0] == a[0] && b[..k][0] == b[0];
      assert a[..k] == b[..k] <==> a[..k][1..] == b[..k][1..];
    }
  }

  predicate IsDigit(c: char)
  {
    '0' <= c <= '9'
  }

  function DigitValue(c: char): (d: nat)
    requires IsDigit(c)
    ensures d < 10
  {
    c as int - '0' as int
  }

  predicate AllDigits(s: string)
  {
    forall i :: 0 <= i < |s| ==> IsDigit(s[i])
  }

  function Pow10(n: nat): (p: nat)
    ensures p >= 1
  {
    if n == 0 then 1 else 10 * Pow10(n - 1)
  }

  /** The number a string of decimal digits spells, most significant digit first. */
  function DecimalValue(s: string): nat
    requires AllDigits(s)
  {
    if |s| == 0 then 0 else DigitValue(s[0]) * Pow10(|s| - 1) + DecimalValue(s[1..])
  }

  lemma {:induction false} DecimalValueBound(s: string)
    requires AllDigits(s)
    ensures DecimalValue(s) < Pow10(|s|)
  {
    if |s| > 0 {
      DecimalValueBound(s[1..]);
      var p := Pow10(|s| - 1);
      assert DigitValue(s[0]) * p <= 9 * p;
    }
  }

  /** A smaller leading digit wins whatever the lower places hold. */
  lemma LeadingDigitDecides(d1: nat, d2: nat, p: nat, x: nat, y: nat)
    requires d1 < d2 && x < p
    ensures d1 * p + x < d2 * p + y
  {
    assert (d1 + 1) * p <= d2 * p;
  }

  /** On digit strings of one length, string order is numeric order. */
  lemma {:induction false} DigitsLessIsNumeric(a: string, b: string)
    requires AllDigits(a) && AllDigits(b) && |a| == |b|
    ensures Less(a, b) <==> DecimalValue(a) < DecimalValue(b)
    ensures a == b <==> DecimalValue(a) == DecimalValue(b)
  {
    if |a| > 0 {
      DigitsLessIsNumeric(a[1..], b[1..]);
      DecimalValueBound(a[1..]);
      DecimalValueBound(b[1..]);
      var p := Pow10(|a| - 1);
      var da, db := DigitValue(a[0]), DigitValue(b[0]);
      if da < db {
        LeadingDigitDecides(da, db, p, DecimalValue(a[1..]), DecimalValue(b[1..]));
      } else if db < da {
        LeadingDigitDecides(db, da, p, DecimalValue(b[1..]), DecimalValue(a[1..]));
      } else {
        assert a[0] == b[0];
        assert a == [a[0]] + a[1..] && b == [b[0]] + b[1..];
      }
    }
  }

  /** A `YYYY-MM-DD` date of the kind the scripts cut from ISO-8601 timestamps. */
  predicate IsIsoDate(s: string)
  {
    && |s| == 10
    && AllDigits(s[..4]) && s[4] == '-'
    && AllDigits(s[5..7]) && s[7] == '-'
    && AllDigits(s[8..])
  }

  function Year(s: string): nat
    requires IsIsoDate(s)
  {
    DecimalValue(s[..4])
  }

  function MonthNumber(s: string): nat
    requires IsIsoDate(s)
  {
    DecimalValue(s[5..7])
  }

  function DayNumber(s: string): nat
    requires IsIsoDate(s)
  {
    DecimalValue(s[8..])
  }

  /** (year, month, day) ordered lexicographically, as a calendar orders dates. */
  predicate DateBefore(y1: nat, m1: nat, d1: nat, y2: nat, m2: nat, d2: nat)
  {
    y1 < y2 || (y1 == y2 && (m1 < m2 || (m1 == m2 && d1 < d2)))
  }

  /** String comparison of two ISO dates is their chronological comparison. */
  lemma IsoDateLessIsChronological(a: string, b: string)
    requires IsIsoDate(a) && IsIsoDate(b)
    ensures Less(a, b) <==> DateBefore(Year(a), MonthNumber(a), DayNumber(a), Year(b), MonthNumber(b), DayNumber(b))
  {
    LessSplit(a, b, 4);
    DigitsLessIsNumeric(a[..4], b[..4]);
    var a1, b1 := a[4..], b[4..];
    LessSplit(a1, b1, 1);
    assert a1[..1] == b1[..1] == "-";
    assert !Less("-", "-");
    var a2, b2 := a1[1..], b1[1..];
    assert a2 == a[5..] && b2 == b[5..];
    LessSplit(a2, b2, 2);
    assert a2[..2] == a[5..7] && b2[..2] == b[5..7];
    DigitsLessIsNumeric(a[5..7], b[5..7]);
    var a3, b3 := a2[2..], b2[2..];
    LessSplit(a3, b3, 1);
    assert a3[..1] == b3[..1] == "-";
    assert a3[1..] == a[8..] && b3[1..] == b[8..];
    DigitsLessIsNumeric(a[8..], b[8..]);
  }
}

=== FILE: records.dfy ===
/**
 * The record helpers of utils.py: the cartesian product of row dicts, rank
 * tagging of list elements, and the recursive flattening of a JSON payload
 * into rows whose keys are the `_`-joined paths to each leaf.
 */
module Records {

  /** A parsed JSON value. Objects keep their entries in insertion order, as Python dicts do. */
  datatype Json =
    | JNull
    | JBool(b: bool)
    | JNum(n: real)
    | JStr(s: string)
    | JArr(items: seq<Json>)
    | JObj(entries: seq<(string, Json)>)

  predicate IsScalar(j: Json)
  {
    !j.JArr? && !j.JObj?
  }

  /** One output record: column name to value. */
  type Row = map<string, Json>

  /** Every value of every row is a JSON leaf. */
  ghost predicate LeafRows(rows: seq<Row>)
  {
    forall i, k :: 0 <= i < |rows| && k in rows[i] ==> IsScalar(rows[i][k])
  }

  // ---------------------------------------------------------------------------
  // cross_join
  // ---------------------------------------------------------------------------

  /** The copies of `l` each updated with one row of `right`, in `right` order. */
  function JoinOne(l: Row, right: seq<Row>): (r: seq<Row>)
    ensures |r| == |right|
  {
    seq(|right|, j requires 0 <= j < |right| => l + right[j])
  }

  /**
   * cross_join(left, right): with an empty `right` the left rows come back
   * as they are; otherwise every (left, right) pair, left-major, with the
   * right row's values winning on shared keys.
   */
  function CrossJoin(left: seq<Row>, right: seq<Row>): (rows: seq<Row>)
    ensures |right| == 0 ==> rows == left
    ensures |right| > 0 ==> |rows| == |left| * |right|
  {
    if |right| == 0 then left
    else if |left| == 0 then []
    else JoinOne(left[0], right) + CrossJoin(left[1..], right)
  }

  lemma RowOffset(i: nat, j: nat, m: nat, n: nat)
    requires i < n && j < m
    ensures i * m + j < n * m
    ensures i > 0 ==> i * m + j - m == (i - 1) * m + j && i * m + j >= m
  {
    assert (i + 1) * m <= n * m;
  }

  lemma {:induction false} CrossJoinIndex(left: seq<Row>, right: seq<Row>, i: nat, j: nat)
    requires i < |left| && j < |right|
    ensures i * |right| + j < |CrossJoin(left, right)|
    ensures CrossJoin(left, right)[i * |right| + j] == left[i] + right[j]
  {
    var m := |right|;
    RowOffset(i, j, m, |left|);
    var head := JoinOne(left[0], right);
    var tail := CrossJoin(left[1..], right);
    assert CrossJoin(left, right) == head + tail;
    if i > 0 {
      CrossJoinIndex(left[1..], right, i - 1, j);
      assert (head + tail)[i * m + j] == tail[(i - 1) * m + j];
    } else {
      assert (head + tail)[j] == head[j];
    }
  }

  /** Row i*|right|+j of the product is left[i] overlaid by right[j]. */
  lemma CrossJoinAt(left: seq<Row>, right: seq<Row>, i: nat, j: nat)
    requires i < |left| && j < |right|
    ensures i * |right| + j < |CrossJoin(left, right)|
    ensures var row := CrossJoin(left, right)[i * |right| + j];
      && row.Keys == left[i].Keys + right[j].Keys
      && (forall k :: k in right[j] ==> row[k] == right[j][k])
      && (forall k :: k in left[i] && k !in right[j] ==> row[k] == left[i][k])
  {
    CrossJoinIndex(left, right, i, j);
  }

  lemma {:induction false} CrossJoinLeaves(left: seq<Row>, right: seq<Row>)
    requires LeafRows(left) && LeafRows(right)
    ensures LeafRows(CrossJoin(left, right))
  {
    if |right| > 0 && |left| > 0 {
      CrossJoinLeaves(left[1..], right);
    }
  }

  // ---------------------------------------------------------------------------
  // flatten_list
  // ---------------------------------------------------------------------------

  /** flatten_list from enumerate index `start`: each row gets "Rank" = its index + 1. */
  function RankFrom(rows: seq<Row>, start: nat): (r: seq<Row>)
    ensures |r| == |rows|
    ensures forall i :: 0 <= i < |r| ==>
      && r[i].Keys == rows[i].Keys + {"Rank"}
      && r[i]["Rank"] == JNum((start + i + 1) as real)
      && (forall k :: k in rows[i] && k != "Rank" ==> r[i][k] == rows[i][k])
  {
    if |rows| == 0 then []
    else [rows[0]["Rank" := JNum((start + 1) as real)]] + RankFrom(rows[1..], start + 1)
  }

  /**
   * flatten_list(rows): the rows in order, each carrying its 1-based position
   * under "Rank" and otherwise unchanged.
   */
  function RankRows(rows: seq<Row>): (r: seq<Row>)
    ensures |r| == |rows|
    ensures forall i :: 0 <= i < |r| ==>
      && r[i].Keys == rows[i].Keys + {"Rank"}
      && r[i]["Rank"] == JNum((i + 1) as real)
      && (forall k :: k in rows[i] && k != "Rank" ==> r[i][k] == rows[i][k])
  {
    RankFrom(rows, 0)
  }

  // ---------------------------------------------------------------------------
  // flatten_json
  // ---------------------------------------------------------------------------

  /** Python's `"\r\n" in s`. */
  ghost predicate ContainsCrLf(s: string)
  {
    exists i :: 0 <= i < |s| - 1 && s[i] == '\r' && s[i + 1] == '\n'
  }

  /** Python's `s.replace("\r\n", "-")`: left to right, non-overlapping. */
  function ReplaceCrLf(s: string): (r: string)
    ensures !ContainsCrLf(r)
    ensures !ContainsCrLf(s) ==> r == s
    ensures |r| <= |s|
    ensures |s| > 0 ==> |r| > 0 && (r[0] == s[0] || r[0] == '-')
  {
    if |s| == 0 then s
    else if |s| >= 2 && s[0] == '\r' && s[1] == '\n' then
      var rest := ReplaceCrLf(s[2..]);
      assert forall i :: 0 < i < |rest| ==> ("-" + rest)[i] == rest[i - 1];
      "-" + rest
    else
      var rest := ReplaceCrLf(s[1..]);
      assert forall i :: 0 < i < |rest| ==> ([s[0]] + rest)[i] == rest[i - 1];
      assert ContainsCrLf(s) ==> ContainsCrLf(s[1..]) by {
        if ContainsCrLf(s) {
          var i :| 0 <= i < |s| - 1 && s[i] == '\r' && s[i + 1] == '\n';
          assert s[1..][i - 1] == s[i];
        }
      }
      [s[0]] + rest
  }

  /** A leading CR LF becomes "-". */
  lemma ReplaceHead(t: string)
    ensures ReplaceCrLf("\r\n" + t) == "-" + ReplaceCrLf(t)
  {
    assert ("\r\n" + t)[2..] == t;
  }

  /** A leading character that does not start a CR LF is kept. */
  lemma ReplaceCons(c: char, t: string)
    requires !(c == '\r' && |t| > 0 && t[0] == '\n')
    ensures ReplaceCrLf([c] + t) == [c] + ReplaceCrLf(t)
  {
    assert ([c] + t)[1..] == t;
  }

  /** A string without CR LF does not start with one, and its tail has none. */
  lemma NoCrLfTail(a: string)
    requires |a| > 0 && !ContainsCrLf(a)
    ensures |a| >= 2 ==> !(a[0] == '\r' && a[1] == '\n')
    ensures !ContainsCrLf(a[1..])
  {
    forall i | 0 <= i < |a[1..]| - 1
      ensures !(a[1..][i] == '\r' && a[1..][i + 1] == '\n')
    {
      assert a[1..][i] == a[i + 1] && a[1..][i + 1] == a[i + 2];
    }
  }

  /**
   * The replacement rewrites the first CR LF to "-" and continues after it:
   * with no CR LF in `a`, the first one of `a + CR LF + b` starts at |a|.
   * Together with the identity on CR-LF-free strings this fixes the result on
   * every input.
   */
  lemma {:induction false} ReplaceAt(a: string, b: string)
    requires !ContainsCrLf(a)
    ensures ReplaceCrLf(a + "\r\n" + b) == a + "-" + ReplaceCrLf(b)
  {
    if |a| == 0 {
      assert a + "\r\n" + b == "\r\n" + b;
      ReplaceHead(b);
    } else {
      NoCrLfTail(a);
      ReplaceAt(a[1..], b);
      ReplaceAtStep(a, b, ReplaceCrLf(b));
    }
  }

  /** The inductive step of ReplaceAt: one more leading character is kept. */
  lemma ReplaceAtStep(a: string, b: string, rb: string)
    requires |a| > 0 && (|a| >= 2 ==> !(a[0] == '\r' && a[1] == '\n'))
    requires ReplaceCrLf(a[1..] + "\r\n" + b) == a[1..] + "-" + rb
    ensures ReplaceCrLf(a + "\r\n" + b) == a + "-" + rb
  {
    var t := a[1..] + "\r\n" + b;
    assert a + "\r\n" + b == [a[0]] + t;
    assert t[0] == (if |a| == 1 then '\r' else a[1]);
    ReplaceCons(a[0], t);
    assert [a[0]] + (a[1..] + "-" + rb) == a + "-" + rb;
  }


  /** The value a dict entry holds after the source's CR LF clean-up. */
  function CleanValue(v: Json): (r: Json)
    ensures IsScalar(r) <==> IsScalar(v)
    ensures r.JStr? ==> !ContainsCrLf(r.s)
    ensures !v.JStr? ==> r == v
    ensures v.JStr? ==> r == JStr(ReplaceCrLf(v.s))
  {
    if v.JStr? && ContainsCrLfExec(v.s) then JStr(ReplaceCrLf(v.s)) else v
  }

  /** Executable `"\r\n" in s`. */
  predicate ContainsCrLfExec(s: string)
    ensures ContainsCrLfExec(s) <==> ContainsCrLf(s)
  {
    if |s| < 2 then false
    else if s[0] == '\r' && s[1] == '\n' then true
    else
      assert ContainsCrLf(s[1..]) ==> ContainsCrLf(s) by {
        if ContainsCrLf(s[1..]) {
          var i :| 0 <= i < |s[1..]| - 1 && s[1..][i] == '\r' && s[1..][i + 1] == '\n';
          assert s[i + 1] == '\r' && s[i + 2] == '\n';
        }
      }
      assert ContainsCrLf(s) ==> ContainsCrLf(s[1..]) by {
        if ContainsCrLf(s) {
          var i :| 0 <= i < |s| - 1 && s[i] == '\r' && s[i + 1] == '\n';
          assert i > 0;
          assert s[1..][i - 1] == s[i];
        }
      }
      ContainsCrLfExec(s[1..])
  }

  /** The column name of `key` below the heading `prev`. */
  function Heading(prev: string, key: string): string
  {
    if prev == "" then key else prev + "_" + key
  }

  /**
   * flatten_json(data, prev): a leaf becomes the one row {prev: leaf}; a
   * dict cross-joins the flattenings of its values in entry order; a list
   * concatenates the rank-tagged flattenings of its items. `dictValue` says
   * the value came out of a dict entry, the only place the source rewrites
   * CR LF in strings.
   */
  function Flatten(data: Json, prev: string, dictValue: bool): (rows: seq<Row>)
    decreases data, 1, 0
  {
    match data
    case JObj(entries) => FlattenEntries(data, prev, |entries|)
    case JArr(items) => FlattenItems(data, prev, |items|)
    case _ => [map[prev := if dictValue then CleanValue(data) else data]]
  }

  /** The dict branch over the first n entries. */
  function FlattenEntries(obj: Json, prev: string, n: nat): seq<Row>
    requires obj.JObj? && n <= |obj.entries|
    decreases obj, 0, n
  {
    if n == 0 then [map[]]
    else
      var entry := obj.entries[n - 1];
      assert entry in obj.entries;
      CrossJoin(FlattenEntries(obj, prev, n - 1), Flatten(entry.1, Heading(prev, entry.0), true))
  }

  /** The list branch over the first n items. */
  function FlattenItems(arr: Json, prev: string, n: nat): seq<Row>
    requires arr.JArr? && n <= |arr.items|
    decreases arr, 0, n
  {
    if n == 0 then []
    else FlattenItems(arr, prev, n - 1) + RankRows(Flatten(arr.items[n - 1], prev, false))
  }

  /** The rows json_to_dataframe hands to the DataFrame constructor. */
  function FlattenJson(data: Json): seq<Row>
  {
    Flatten(data, "", false)
  }

  /** The shapes with no recursion: a leaf, an empty dict, an empty list. */
  lemma FlattenBaseCases(data: Json, prev: string, dictValue: bool)
    ensures IsScalar(data) && !(dictValue && data.JStr?) ==> Flatten(data, prev, dictValue) == [map[prev := data]]
    ensures data.JStr? && dictValue ==> Flatten(data, prev, dictValue) == [map[prev := JStr(ReplaceCrLf(data.s))]]
    ensures data == JObj([]) ==> Flatten(data, prev, dictValue) == [map[]]
    ensures data == JArr([]) ==> Flatten(data, prev, dictValue) == []
  {
  }

  /** Reference count of rows: leaves 1, lists the sum, dicts the product with empty factors counted as 1. */
  function RowCount(data: Json): nat
    decreases data, 1, 0
  {
    match data
    case JObj(entries) => EntriesRowCount(data, |entries|)
    case JArr(items) => ItemsRowCount(data, |items|)
    case _ => 1
  }

  function EntriesRowCount(obj: Json, n: nat): nat
    requires obj.JObj? && n <= |obj.entries|
    decreases obj, 0, n
  {
    if n == 0 then 1
    else
      assert obj.entries[n - 1] in obj.entries;
      var c := RowCount(obj.entries[n - 1].1);
      EntriesRowCount(obj, n - 1) * (if c == 0 then 1 else c)
  }

  function ItemsRowCount(arr: Json, n: nat): nat
    requires arr.JArr? && n <= |arr.items|
    decreases arr, 0, n
  {
    if n == 0 then 0 else ItemsRowCount(arr, n - 1) + RowCount(arr.items[n - 1])
  }

  /** The flattening has exactly RowCount rows, and every value in it is a leaf. */
  lemma {:induction false} FlattenShape(data: Json, prev: string, dictValue: bool)
    ensures |Flatten(data, prev, dictValue)| == RowCount(data)
    ensures LeafRows(Flatten(data, prev, dictValue))
    decreases data, 1, 0
  {
    match data
    case JObj(entries) => FlattenEntriesShape(data, prev, |entries|);
    case JArr(items) => FlattenItemsShape(data, prev, |items|);
    case _ =>
  }

  lemma {:induction false} FlattenEntriesShape(obj: Json, prev: string, n: nat)
    requires obj.JObj? && n <= |obj.entries|
    ensures |FlattenEntries(obj, prev, n)| == EntriesRowCount(obj, n)
    ensures LeafRows(FlattenEntries(obj, prev, n))
    decreases obj, 0, n
  {
    if n > 0 {
      var entry := obj.entries[n - 1];
      assert entry in obj.entries;
      FlattenEntriesShape(obj, prev, n - 1);
      FlattenShape(entry.1, Heading(prev, entry.0), true);
      CrossJoinLeaves(FlattenEntries(obj, prev, n - 1), Flatten(entry.1, Heading(prev, entry.0), true));
    }
  }

  lemma {:induction false} FlattenItemsShape(arr: Json, prev: string, n: nat)
    requires arr.JArr? && n <= |arr.items|
    ensures |FlattenItems(arr, prev, n)| == ItemsRowCount(arr, n)
    ensures LeafRows(FlattenItems(arr, prev, n))
    decreases arr, 0, n
  {
    if n > 0 {
      var item := arr.items[n - 1];
      FlattenItemsShape(arr, prev, n - 1);
      FlattenShape(item, prev, false);
      RankLeaves(Flatten(item, prev, false));
      LeafAppend(FlattenItems(arr, prev, n - 1), RankRows(Flatten(item, prev, false)));
    }
  }

  /** The rows of the first n items depend only on those items. */
  lemma {:induction false} FlattenItemsPrefix(x: seq<Json>, y: seq<Json>, prev: string, n: nat)
    requires n <= |x| && n <= |y| && x[..n] == y[..n]
    ensures FlattenItems(JArr(x), prev, n) == FlattenItems(JArr(y), prev, n)
  {
    if n > 0 {
      assert x[n - 1] == x[..n][n - 1] == y[..n][n - 1] == y[n - 1];
      assert x[..n - 1] == x[..n][..n - 1] == y[..n][..n - 1] == y[..n - 1];
      FlattenItemsPrefix(x, y, prev, n - 1);
    }
  }

  lemma {:induction false} FlattenItemsAppend(a: seq<Json>, b: seq<Json>, prev: string, m: nat)
    requires m <= |b|
    ensures FlattenItems(JArr(a + b), prev, |a| + m) == FlattenItems(JArr(a), prev, |a|) + FlattenItems(JArr(b), prev, m)
  {
    if m == 0 {
      assert (a + b)[..|a|] == a[..|a|];
      FlattenItemsPrefix(a + b, a, prev, |a|);
      assert FlattenItems(JArr(b), prev, 0) == [];
      assert |a| + m == |a|;
    } else {
      FlattenItemsAppend(a, b, prev, m - 1);
      var last := RankRows(Flatten(b[m - 1], prev, false));
      assert (a + b)[|a| + m - 1] == b[m - 1];
      assert FlattenItems(JArr(a + b), prev, |a| + m) == FlattenItems(JArr(a + b), prev, |a| + m - 1) + last;
      assert FlattenItems(JArr(b), prev, m) == FlattenItems(JArr(b), prev, m - 1) + last;
      var left := FlattenItems(JArr(a), prev, |a|);
      var mid := FlattenItems(JArr(b), prev, m - 1);
      assert (left + mid) + last == left + (mid + last);
    }
  }

  /** A list's rows are its items' rows concatenated in list order. */
  lemma FlattenListAppend(a: seq<Json>, b: seq<Json>, prev: string, dictValue: bool)
    ensures Flatten(JArr(a + b), prev, dictValue) == Flatten(JArr(a), prev, dictValue) + Flatten(JArr(b), prev, dictValue)
  {
    FlattenItemsAppend(a, b, prev, |b|);
  }

  /** One list item contributes its own rows, numbered from 1 under "Rank", under the list's heading. */
  lemma FlattenListSingle(x: Json, prev: string, dictValue: bool)
    ensures Flatten(JArr([x]), prev, dictValue) == RankRows(Flatten(x, prev, false))
  {
    assert JArr([x]).items[0] == x;
    assert FlattenItems(JArr([x]), prev, 0) == [];
    assert FlattenItems(JArr([x]), prev, 1) == [] + RankRows(Flatten(x, prev, false));
  }

  /** The rows of the first n entries depend only on those entries. */
  lemma {:induction false} FlattenEntriesPrefix(x: seq<(string, Json)>, y: seq<(string, Json)>, prev: string, n: nat)
    requires n <= |x| && n <= |y| && x[..n] == y[..n]
    ensures FlattenEntries(JObj(x), prev, n) == FlattenEntries(JObj(y), prev, n)
  {
    if n > 0 {
      assert x[n - 1] == x[..n][n - 1] == y[..n][n - 1] == y[n - 1];
      assert x[..n - 1] == x[..n][..n - 1] == y[..n][..n - 1] == y[..n - 1];
      FlattenEntriesPrefix(x, y, prev, n - 1);
    }
  }

  /**
   * A dict's rows are the rows of its earlier entries cross-joined with the
   * rows of its last value, flattened under the joined heading.
   */
  lemma FlattenDictSnoc(entries: seq<(string, Json)>, key: string, value: Json, prev: string, dictValue: bool)
    ensures Flatten(JObj(entries + [(key, value)]), prev, dictValue)
         == CrossJoin(Flatten(JObj(entries), prev, dictValue), Flatten(value, Heading(prev, key), true))
  {
    var all := entries + [(key, value)];
    assert all[|entries|] == (key, value);
    assert all[..|entries|] == entries[..|entries|];
    FlattenEntriesPrefix(all, entries, prev, |entries|);
  }

  /** Numbering rows adds only the scalar Rank. */
  lemma RankLeaves(rows: seq<Row>)
    requires LeafRows(rows)
    ensures LeafRows(RankRows(rows))
  {
  }

  lemma LeafAppend(a: seq<Row>, b: seq<Row>)
    requires LeafRows(a) && LeafRows(b)
    ensures LeafRows(a + b)
  {
    assert forall i :: |a| <= i < |a + b| ==> (a + b)[i] == b[i - |a|];
  }

  /** Python dicts never repeat a key. */
  ghost predicate DistinctKeys(obj: Json)
    requires obj.JObj?
  {
    forall i, j :: 0 <= i < j < |obj.entries| ==> obj.entries[i].0 != obj.entries[j].0
  }

  lemma HeadingInjective(prev: string, k1: string, k2: string)
    requires Heading(prev, k1) == Heading(prev, k2)
    ensures k1 == k2
  {
    if prev != "" {
      assert k1 == Heading(prev, k1)[|prev| + 1..];
      assert k2 == Heading(prev, k2)[|prev| + 1..];
    }
  }

  /** The headings of the first n keys of a dict under `prev`. */
  function Headings(obj: Json, prev: string, n: nat): set<string>
    requires obj.JObj? && n <= |obj.entries|
  {
    if n == 0 then {} else Headings(obj, prev, n - 1) + {Heading(prev, obj.entries[n - 1].0)}
  }

  lemma {:induction false} HeadingsMembers(obj: Json, prev: string, n: nat)
    requires obj.JObj? && n <= |obj.entries|
    ensures forall i :: 0 <= i < n ==> Heading(prev, obj.entries[i].0) in Headings(obj, prev, n)
  {
    if n > 0 {
      HeadingsMembers(obj, prev, n - 1);
    }
  }

  /** One more leaf entry on top of a single row updates that row under the entry's heading. */
  lemma LeafEntryStep(obj: Json, prev: string, n: nat)
    requires obj.JObj? && 0 < n <= |obj.entries| && IsScalar(obj.entries[n - 1].1)
    requires |FlattenEntries(obj, prev, n - 1)| == 1
    ensures FlattenEntries(obj, prev, n)
         == [FlattenEntries(obj, prev, n - 1)[0][Heading(prev, obj.entries[n - 1].0) := CleanValue(obj.entries[n - 1].1)]]
  {
    var entry := obj.entries[n - 1];
    var h := Heading(prev, entry.0);
    var before := FlattenEntries(obj, prev, n - 1)[0];
    var cell := map[h := CleanValue(entry.1)];
    assert Flatten(entry.1, h, true) == [cell];
    assert JoinOne(before, [cell]) == [before + cell];
    assert CrossJoin([before], [cell]) == [before + cell];
    assert before + cell == before[h := CleanValue(entry.1)];
  }

  /**
   * A dict whose values are all leaves flattens to a single row holding
   * each key under `prev + "_" + key` (just `key` at the top), with CR LF
   * in string values turned into "-".
   */
  lemma {:induction false} FlattenFlatObject(obj: Json, prev: string, n: nat)
    requires obj.JObj? && n <= |obj.entries| && DistinctKeys(obj)
    requires forall e :: e in obj.entries ==> IsScalar(e.1)
    ensures |FlattenEntries(obj, prev, n)| == 1
    ensures FlattenEntries(obj, prev, n)[0].Keys == Headings(obj, prev, n)
    ensures forall i :: 0 <= i < n ==> Heading(prev, obj.entries[i].0) in FlattenEntries(obj, prev, n)[0]
    ensures forall i :: 0 <= i < n ==>
      FlattenEntries(obj, prev, n)[0][Heading(prev, obj.entries[i].0)] == CleanValue(obj.entries[i].1)
  {
    if n > 0 {
      FlattenFlatObject(obj, prev, n - 1);
      assert obj.entries[n - 1] in obj.entries;
      LeafEntryStep(obj, prev, n);
      var h := Heading(prev, obj.entries[n - 1].0);
      var before := FlattenEntries(obj, prev, n - 1)[0];
      var row := FlattenEntries(obj, prev, n)[0];
      HeadingsMembers(obj, prev, n);
      assert row == before[h := CleanValue(obj.entries[n - 1].1)];
      forall i | 0 <= i < n - 1
        ensures row[Heading(prev, obj.entries[i].0)] == CleanValue(obj.entries[i].1)
      {
        if Heading(prev, obj.entries[i].0) == h {
          HeadingInjective(prev, obj.entries[i].0, obj.entries[n - 1].0);
        }
      }
    }
  }

  /** Nested keys are joined with "_": {"fields": {"System.Id": 7}} becomes one row {"fields_System.Id": 7}. */
  lemma NestedKeysJoined()
    ensures FlattenJson(JObj([("fields", JObj([("System.Id", JNum(7.0))]))]))
         == [map["fields_System.Id" := JNum(7.0)]]
  {
    var inner := JObj([("System.Id", JNum(7.0))]);
    var outer := JObj([("fields", inner)]);
    assert Heading("fields", "System.Id") == "fields_System.Id";
    assert Flatten(inner, "fields", true) == [map["fields_System.Id" := JNum(7.0)]] by {
      assert inner.entries[0] in inner.entries;
      assert FlattenEntries(inner, "fields", 0) == [map[]];
    }
    assert FlattenEntries(outer, "", 0) == [map[]];
    assert map[] + map["fields_System.Id" := JNum(7.0)] == map["fields_System.Id" := JNum(7.0)];
  }

  /** A CR LF inside a dict's string value becomes "-"; the same string as a list item is kept. */
  lemma CrLfOnlyInDictValues()
    ensures FlattenJson(JObj([("c", JStr("a\r\nb"))])) == [map["c" := JStr("a-b")]]
    ensures FlattenJson(JArr([JStr("a\r\nb")])) == [map["" := JStr("a\r\nb"), "Rank" := JNum(1.0)]]
  {
    DictValueCleaned();
    ListItemKept();
  }

  lemma DictValueCleaned()
    ensures FlattenJson(JObj([("c", JStr("a\r\nb"))])) == [map["c" := JStr("a-b")]]
  {
    var obj := JObj([("c", JStr("a\r\nb"))]);
    assert obj.entries[0] in obj.entries;
    assert ContainsCrLfExec("a\r\nb");
    assert ReplaceCrLf("b") == "b";
    assert ReplaceCrLf("\r\nb") == "-b";
    assert ReplaceCrLf("a\r\nb") == "a-b";
    assert FlattenEntries(obj, "", 0) == [map[]];
    assert map[] + map["c" := JStr("a-b")] == map["c" := JStr("a-b")];
  }

  lemma ListItemKept()
    ensures FlattenJson(JArr([JStr("a\r\nb")])) == [map["" := JStr("a\r\nb"), "Rank" := JNum(1.0)]]
  {
    var arr := JArr([JStr("a\r\nb")]);
    assert FlattenItems(arr, "", 0) == [];
    var rows := RankRows([map["" := JStr("a\r\nb")]]);
    assert rows[0] == map["" := JStr("a\r\nb"), "Rank" := JNum(1.0)];
  }

}

=== FILE: tickets.dfy ===
/**
 * The work-item export of fetch_tickets.py: for every configured team, the
 * IDs its query returned are fetched in batches, each item's revision
 * history yields the first dates it entered "Doing" and "Done", migration
 * noise is dropped, and every surviving item becomes one export row.
 */
module Tickets {
  import opened Wrappers
  import PyStrings
  import Batching

  // ---------------------------------------------------------------------------
  // Transition dates
  // ---------------------------------------------------------------------------

  const Doing := "Doing"
  const Done := "Done"

  /** One revision: `fields.System.State` and `fields.System.ChangedDate`, either possibly missing. */
  datatype Revision = Revision(state: Option<string>, changedDate: Option<string>)

  /** The date part of a ChangedDate: its first 10 characters (an empty string stays empty). */
  function DatePart(changed: Option<string>): (r: Option<string>)
    ensures r.Some? <==> changed.Some?
    ensures r.Some? ==> r.value <= changed.value
    ensures r.Some? ==> |r.value| == if |changed.value| < 10 then |changed.value| else 10
  {
    match changed
    case None => None
    case Some(s) => Some(PyStrings.Take(s, 10))
  }

  /** A revision that can fill the `target` slot: it is in that state and carries a ChangedDate. */
  predicate Fills(rev: Revision, target: string)
  {
    rev.state == Some(target) && rev.changedDate.Some?
  }

  /** Reference definition: the date part of the first revision, in list order, that fills `target`. */
  function FirstEntered(revs: seq<Revision>, target: string): (r: Option<string>)
    ensures r.Some? ==> exists i :: 0 <= i < |revs| && Fills(revs[i], target) && r == DatePart(revs[i].changedDate)
  {
    if |revs| == 0 then None
    else if Fills(revs[0], target) then DatePart(revs[0].changedDate)
    else
      var r := FirstEntered(revs[1..], target);
      assert r.Some? ==> exists i :: 0 < i < |revs| && Fills(revs[i], target) && r == DatePart(revs[i].changedDate) by {
        if r.Some? {
          var i :| 0 <= i < |revs[1..]| && Fills(revs[1..][i], target) && r == DatePart(revs[1..][i].changedDate);
          assert revs[i + 1] == revs[1..][i];
        }
      }
      r
  }

  /**
   * The first revision that fills the slot decides it; no revision filling
   * it means the slot stays empty. A revision in the state but without a
   * ChangedDate is passed over, so a later one can still fill the slot.
   */
  lemma {:induction false} FirstEnteredIsFirstMatch(revs: seq<Revision>, target: string)
    ensures forall i :: (0 <= i < |revs| && Fills(revs[i], target) && (forall j :: 0 <= j < i ==> !Fills(revs[j], target)))
                        ==> FirstEntered(revs, target) == DatePart(revs[i].changedDate)
    ensures (forall i :: 0 <= i < |revs| ==> !Fills(revs[i], target)) <==> FirstEntered(revs, target) == None
  {
    if |revs| > 0 {
      FirstEnteredIsFirstMatch(revs[1..], target);
      forall i | 0 < i < |revs| && Fills(revs[i], target) && (forall j :: 0 <= j < i ==> !Fills(revs[j], target))
        ensures FirstEntered(revs, target) == DatePart(revs[i].changedDate)
      {
        assert !Fills(revs[0], target);
        assert revs[1..][i - 1] == revs[i];
        forall j | 0 <= j < i - 1
          ensures !Fills(revs[1..][j], target)
        {
          assert revs[1..][j] == revs[j + 1];
        }
      }
      if FirstEntered(revs, target) == None {
        forall i | 0 <= i < |revs|
          ensures !Fills(revs[i], target)
        {
          if i > 0 {
            assert revs[1..][i - 1] == revs[i];
          }
        }
      }
    }
  }

  /** Later revisions never overwrite a slot that is already filled. */
  lemma {:induction false} FirstEnteredStable(revs: seq<Revision>, later: seq<Revision>, target: string)
    requires FirstEntered(revs, target).Some?
    ensures FirstEntered(revs + later, target) == FirstEntered(revs, target)
  {
    assert (revs + later)[0] == revs[0];
    if !Fills(revs[0], target) {
      assert (revs + later)[1..] == revs[1..] + later;
      FirstEnteredStable(revs[1..], later, target);
    }
  }

  /**
   * get_transition_dates: one pass over the revisions, filling the Doing and
   * Done slots each at most once.
   */
  method GetTransitionDates(revs: seq<Revision>) returns (doing: Option<string>, done: Option<string>)
    ensures doing == FirstEntered(revs, Doing)
    ensures done == FirstEntered(revs, Done)
  {
    doing, done := None, None;
    var i := 0;
    while i < |revs|
      invariant 0 <= i <= |revs|
      invariant doing.Some? ==> doing == FirstEntered(revs, Doing)
      invariant doing.None? ==> FirstEntered(revs, Doing) == FirstEntered(revs[i..], Doing)
      invariant done.Some? ==> done == FirstEntered(revs, Done)
      invariant done.None? ==> FirstEntered(revs, Done) == FirstEntered(revs[i..], Done)
    {
      var rev := revs[i];
      var changed := DatePart(rev.changedDate);
      assert revs[i..][1..] == revs[i + 1..];
      if rev.state == Some(Doing) && doing.None? {
        doing := changed;
      }
      if rev.state == Some(Done) && done.None? {
        done := changed;
      }
      i := i + 1;
    }
  }

  /** A history that never reaches "Doing" or "Done" yields (None, None). */
  lemma NoTransitions(revs: seq<Revision>)
    requires forall i :: 0 <= i < |revs| ==> revs[i].state != Some(Doing) && revs[i].state != Some(Done)
    ensures FirstEntered(revs, Doing) == None && FirstEntered(revs, Done) == None
  {
    FirstEnteredIsFirstMatch(revs, Doing);
    FirstEnteredIsFirstMatch(revs, Done);
  }

  // ---------------------------------------------------------------------------
  // Work items and the migration-noise filter
  // ---------------------------------------------------------------------------

  /** How `System.AssignedTo` came back: absent, an identity object (with or without displayName), or another JSON value. */
  datatype Assignee = Unassigned | Identity(displayName: Option<string>) | NotAnObject

  /** The fields the batch request asks for; a field without a value is left out of the answer. */
  datatype WorkItemFields = WorkItemFields(
    id: Option<int>,
    title: Option<string>,
    state: Option<string>,
    assignedTo: Assignee,
    workItemType: Option<string>,
    productType: Option<string>,
    targetDate: Option<string>)

  /** One element of a batch answer: the item's `id` and its `fields`. */
  datatype WorkItem = WorkItem(id: int, fields: WorkItemFields)

  /** A work item with its derived dates and the label of the team whose query found it. */
  datatype ExportedItem = ExportedItem(item: WorkItem, doingDate: Option<string>, doneDate: Option<string>, team: string)

  /** Items closed on this day were closed by a tracker migration, not by work. */
  const MigrationDate := "2025-09-10"

  /** Items closed before this day fall outside the reporting window. */
  const WindowStart := "2025-01-01"

  /** The "skip migration junk" test: an absent or empty done date always passes. */
  predicate Keep(state: Option<string>, done: Option<string>)
  {
    match done
    case None => true
    case Some(d) =>
      d == "" || !((state == Some(Done) && d == MigrationDate) || PyStrings.Less(d, WindowStart))
  }

  predicate Kept(e: ExportedItem)
  {
    Keep(e.item.fields.state, e.doneDate)
  }

  lemma WindowStartParts()
    ensures PyStrings.IsIsoDate(WindowStart)
    ensures PyStrings.Year(WindowStart) == 2025
    ensures PyStrings.MonthNumber(WindowStart) == 1
    ensures PyStrings.DayNumber(WindowStart) == 1
  {
    assert WindowStart[..4] == "2025";
    assert WindowStart[5..7] == "01";
    assert WindowStart[8..] == "01";
    assert PyStrings.DecimalValue("5") == 5;
    assert PyStrings.DecimalValue("25") == 25;
    assert PyStrings.DecimalValue("025") == 25;
    assert PyStrings.DecimalValue("1") == 1;
  }

  /**
   * On a well-formed `YYYY-MM-DD` done date the filter is a calendar test: it
   * drops the item exactly when it was closed by the migration, or closed
   * before 1 January 2025.
   */
  /**
   * On every done date, well-formed or not, the filter compares strings by
   * code point: an item is dropped exactly when it has a non-empty done date
   * that is the migration date while Done, or lexicographically before
   * 2025-01-01.
   */
  lemma KeepIsLexicographic(state: Option<string>, d: string)
    ensures Keep(state, Some(d)) <==>
      d == "" || !((state == Some(Done) && d == MigrationDate) || PyStrings.LexLess(d, WindowStart))
  {
    PyStrings.LessIsLexicographic(d, WindowStart);
  }

  lemma KeepIsCalendarTest(state: Option<string>, d: string)
    requires PyStrings.IsIsoDate(d)
    ensures Keep(state, Some(d)) <==>
      && !(state == Some(Done) && d == MigrationDate)
      && !PyStrings.DateBefore(PyStrings.Year(d), PyStrings.MonthNumber(d), PyStrings.DayNumber(d), 2025, 1, 1)
  {
    WindowStartParts();
    PyStrings.IsoDateLessIsChronological(d, WindowStart);
  }

  /** Boundary examples of the filter. */
  lemma KeepBoundaries(state: Option<string>)
    ensures !Keep(Some(Done), Some("2025-09-10"))
    ensures !Keep(state, Some("2024-12-31"))
    ensures state != Some(Done) ==> Keep(state, Some("2025-01-01"))
    ensures Keep(state, Some("2025-09-11"))
    ensures Keep(state, None) && Keep(state, Some(""))
  {
    assert PyStrings.Less("4-12-31", "5-01-01");
    assert PyStrings.Less("2024-12-31", WindowStart);
    assert !PyStrings.Less("5-01-01", "5-01-01");
    assert !PyStrings.Less("2025-01-01", WindowStart);
    assert !PyStrings.Less("9-11", "1-01");
    assert !PyStrings.Less("2025-09-11", WindowStart);
  }

  // ---------------------------------------------------------------------------
  // The export loop
  // ---------------------------------------------------------------------------

  /** One fetched item with its Doing and Done dates and its team label attached. */
  function Annotate(team: string, item: WorkItem, history: int -> seq<Revision>): ExportedItem
  {
    var revs := history(item.id);
    ExportedItem(item, FirstEntered(revs, Doing), FirstEntered(revs, Done), team)
  }

  /** Every fetched item, in fetch order, with its transition dates and the team label. */
  function AnnotateAll(team: string, details: seq<WorkItem>, history: int -> seq<Revision>): (r: seq<ExportedItem>)
    ensures |r| == |details|
    ensures forall i :: 0 <= i < |r| ==> r[i].item == details[i] && r[i].team == team
    ensures forall i :: 0 <= i < |r| ==>
      && r[i].doingDate == FirstEntered(history(details[i].id), Doing)
      && r[i].doneDate == FirstEntered(history(details[i].id), Done)
  {
    seq(|details|, i requires 0 <= i < |details| => Annotate(team, details[i], history))
  }

  /** The items the filter keeps, in their original order. */
  function KeepOnly(items: seq<ExportedItem>): (r: seq<ExportedItem>)
    ensures forall e :: e in r ==> Kept(e) && e in items
  {
    if |items| == 0 then []
    else (if Kept(items[0]) then [items[0]] else []) + KeepOnly(items[1..])
  }

  ghost predicate IsSubsequence<T>(a: seq<T>, b: seq<T>)
    decreases |b|
  {
    |a| == 0 || (|b| > 0 && ((a[0] == b[0] && IsSubsequence(a[1..], b[1..])) || IsSubsequence(a, b[1..])))
  }

  function CountKept(items: seq<ExportedItem>): nat
  {
    if |items| == 0 then 0 else (if Kept(items[0]) then 1 else 0) + CountKept(items[1..])
  }

  /**
   * The filter output is an order-preserving subsequence of its input that
   * holds as many items as the input has kept ones: exactly the kept items,
   * in order. Every kept item survives.
   */
  lemma {:induction false} KeepOnlySelects(items: seq<ExportedItem>)
    ensures IsSubsequence(KeepOnly(items), items)
    ensures |KeepOnly(items)| == CountKept(items)
    ensures forall i :: 0 <= i < |items| && Kept(items[i]) ==> items[i] in KeepOnly(items)
  {
    if |items| > 0 {
      KeepOnlySelects(items[1..]);
      forall i | 0 < i < |items| && Kept(items[i])
        ensures items[i] in KeepOnly(items)
      {
        assert items[1..][i - 1] == items[i];
      }
      if Kept(items[0]) {
        assert KeepOnly(items) == [items[0]] + KeepOnly(items[1..]);
        assert KeepOnly(items)[1..] == KeepOnly(items[1..]);
      } else {
        assert KeepOnly(items) == KeepOnly(items[1..]);
        SubsequenceOfTail(KeepOnly(items[1..]), items);
      }
    }
  }

  lemma SubsequenceOfTail<T>(a: seq<T>, b: seq<T>)
    requires |b| > 0 && IsSubsequence(a, b[1..])
    ensures IsSubsequence(a, b)
  {
  }

  /** The export loop body for one team: annotate every fetched item, then drop migration noise. */
  function ExportTeam(team: string, details: seq<WorkItem>, history: int -> seq<Revision>): (r: seq<ExportedItem>)
    ensures forall e :: e in r ==> e.team == team && Kept(e)
    ensures forall i :: 0 <= i < |details| && Kept(Annotate(team, details[i], history)) ==>
      Annotate(team, details[i], history) in r
    ensures IsSubsequence(r, AnnotateAll(team, details, history))
    ensures |r| == CountKept(AnnotateAll(team, details, history))
  {
    var all := AnnotateAll(team, details, history);
    KeepOnlySelects(all);
    KeepOnly(all)
  }

  /** One configured team: its label, its project, and the IDs its WIQL query returned, or None when the team-settings probe or the query failed. */
  datatype TeamQuery = TeamQuery(team: string, project: string, ids: Option<seq<int>>)

  /** The workitemsbatch request of one project. */
  function ProjectBatch(fetchBatch: (string, seq<int>) -> seq<WorkItem>, project: string): seq<int> -> seq<WorkItem>
  {
    b => fetchBatch(project, b)
  }

  /** The revisions request of one project. */
  function ProjectHistory(history: (string, int) -> seq<Revision>, project: string): int -> seq<Revision>
  {
    id => history(project, id)
  }

  /**
   * The items one team contributes: a team whose probe or query failed
   * contributes none; otherwise every item fetched for its IDs, in 200-ID
   * batches, that passes the filter, and nothing else.
   */
  function TeamItems(q: TeamQuery, fetchBatch: (string, seq<int>) -> seq<WorkItem>, history: (string, int) -> seq<Revision>): (r: seq<ExportedItem>)
    ensures q.ids.None? ==> r == []
    ensures q.ids.Some? ==>
      var details := Batching.BatchFetch(q.ids.value, ProjectBatch(fetchBatch, q.project));
      var hist := ProjectHistory(history, q.project);
      && (forall e :: e in r ==> e.team == q.team && Kept(e))
      && (forall i :: 0 <= i < |details| && Kept(Annotate(q.team, details[i], hist)) ==> Annotate(q.team, details[i], hist) in r)
      && IsSubsequence(r, AnnotateAll(q.team, details, hist))
      && |r| == CountKept(AnnotateAll(q.team, details, hist))
  {
    match q.ids
    case None => []
    case Some(ids) =>
      ExportTeam(q.team, Batching.BatchFetch(ids, ProjectBatch(fetchBatch, q.project)), ProjectHistory(history, q.project))
  }

  /**
   * `all_details` after the loop over all teams: the teams' contributions in
   * team order. `fetchBatch` answers a workitemsbatch request and `history`
   * a revisions request.
   */
  function Export(teams: seq<TeamQuery>, fetchBatch: (string, seq<int>) -> seq<WorkItem>, history: (string, int) -> seq<Revision>): (r: seq<ExportedItem>)
    ensures forall e :: e in r ==> Kept(e) && exists k :: 0 <= k < |teams| && teams[k].ids.Some? && teams[k].team == e.team
  {
    if |teams| == 0 then []
    else
      var rest := Export(teams[1..], fetchBatch, history);
      assert forall e :: e in rest ==> exists k :: 0 < k < |teams| && teams[k].ids.Some? && teams[k].team == e.team by {
        forall e | e in rest
          ensures exists k :: 0 < k < |teams| && teams[k].ids.Some? && teams[k].team == e.team
        {
          var k :| 0 <= k < |teams[1..]| && teams[1..][k].ids.Some? && teams[1..][k].team == e.team;
          assert teams[k + 1] == teams[1..][k];
        }
      }
      TeamItems(teams[0], fetchBatch, history) + rest
  }

  lemma {:induction false} ExportAppend(a: seq<TeamQuery>, b: seq<TeamQuery>, fetchBatch: (string, seq<int>) -> seq<WorkItem>, history: (string, int) -> seq<Revision>)
    ensures Export(a + b, fetchBatch, history) == Export(a, fetchBatch, history) + Export(b, fetchBatch, history)
  {
    if |a| == 0 {
      assert a + b == b;
    } else {
      assert (a + b)[1..] == a[1..] + b;
      ExportAppend(a[1..], b, fetchBatch, history);
    }
  }
  /** A single team whose query succeeded exports exactly its own filtered items. */
  lemma ExportSingleTeam(q: TeamQuery, fetchBatch: (string, seq<int>) -> seq<WorkItem>, history: (string, int) -> seq<Revision>)
    requires q.ids.Some?
    ensures Export([q], fetchBatch, history)
         == ExportTeam(q.team, Batching.BatchFetch(q.ids.value, ProjectBatch(fetchBatch, q.project)), ProjectHistory(history, q.project))
  {
    assert [q][1..] == [];
  }

  /**
   * The export is the teams before k, then team k's items, then the teams
   * after it: every item team k contributes reaches the final export, in place.
   */
  lemma ExportIncludesTeam(teams: seq<TeamQuery>, k: int, fetchBatch: (string, seq<int>) -> seq<WorkItem>, history: (string, int) -> seq<Revision>)
    requires 0 <= k < |teams|
    ensures Export(teams, fetchBatch, history)
         == Export(teams[..k], fetchBatch, history) + TeamItems(teams[k], fetchBatch, history) + Export(teams[k + 1..], fetchBatch, history)
    ensures forall e :: e in TeamItems(teams[k], fetchBatch, history) ==> e in Export(teams, fetchBatch, history)
  {
    assert teams == teams[..k] + [teams[k]] + teams[k + 1..];
    ExportAppend(teams[..k] + [teams[k]], teams[k + 1..], fetchBatch, history);
    ExportAppend(teams[..k], [teams[k]], fetchBatch, history);
    assert [teams[k]][1..] == [];
    assert Export([teams[k]], fetchBatch, history) == TeamItems(teams[k], fetchBatch, history);
  }


  /** A team whose probe or query failed is skipped entirely: the others' items are exactly as without it. */
  lemma SkippedTeamContributesNothing(a: seq<TeamQuery>, skipped: TeamQuery, b: seq<TeamQuery>, fetchBatch: (string, seq<int>) -> seq<WorkItem>, history: (string, int) -> seq<Revision>)
    requires skipped.ids.None?
    ensures Export(a + [skipped] + b, fetchBatch, history) == Export(a + b, fetchBatch, history)
  {
    var none: seq<ExportedItem> := [];
    assert TeamItems(skipped, fetchBatch, history) == none;
    assert Export([skipped], fetchBatch, history) == none + Export([], fetchBatch, history);
    ExportAppend(a + [skipped], b, fetchBatch, history);
    ExportAppend(a, [skipped], fetchBatch, history);
    ExportAppend(a, b, fetchBatch, history);
  }

  // ---------------------------------------------------------------------------
  // Export rows
  // ---------------------------------------------------------------------------

  /**
   * One row of the export file. The fields follow the header's column order:
   * ID, Title, AssignedTo, State, Type, ProductType, TargetDate, DoingDate,
   * DoneDate, Team. An absent value is written as "".
   */
  datatype ExportRow = ExportRow(
    id: int,
    title: string,
    assignedTo: string,
    state: string,
    workItemType: string,
    productType: string,
    targetDate: string,
    doingDate: string,
    doneDate: string,
    team: string)

  /** The field whose absence raises KeyError while the row is written. */
  datatype MissingField = MissingId | MissingTitle | MissingState | MissingType

  /** The assignee column: the identity's displayName, "" in every other case. */
  function AssigneeName(a: Assignee): (name: string)
    ensures a.Identity? && a.displayName.Some? ==> name == a.displayName.value
    ensures !(a.Identity? && a.displayName.Some?) ==> name == ""
  {
    match a
    case Identity(Some(n)) => n
    case _ => ""
  }

  /** The export row of one item; Id, Title, State and WorkItemType must be present. */
  function RenderRow(e: ExportedItem): (r: Result<ExportRow, MissingField>)
    ensures r.Success? <==>
      e.item.fields.id.Some? && e.item.fields.title.Some? && e.item.fields.state.Some? && e.item.fields.workItemType.Some?
    ensures r.Failure? ==>
              r.error == (if e.item.fields.id.None? then MissingId
                          else if e.item.fields.title.None? then MissingTitle
                          else if e.item.fields.state.None? then MissingState
                          else MissingType)
    ensures r.Success? ==>
      var f := e.item.fields;
      var target := f.targetDate.GetOr("");
      && r.value.id == f.id.value
      && r.value.title == f.title.value
      && r.value.state == f.state.value
      && r.value.workItemType == f.workItemType.value
      && (f.assignedTo.Identity? && f.assignedTo.displayName.Some? ==> r.value.assignedTo == f.assignedTo.displayName.value)
      && (!(f.assignedTo.Identity? && f.assignedTo.displayName.Some?) ==> r.value.assignedTo == "")
      && r.value.productType == f.productType.GetOr("")
      && r.value.targetDate <= target
      && |r.value.targetDate| == (if |target| < 10 then |target| else 10)
      && (e.doingDate.Some? ==> r.value.doingDate == e.doingDate.value)
      && (e.doingDate.None? ==> r.value.doingDate == "")
      && (e.doneDate.Some? ==> r.value.doneDate == e.doneDate.value)
      && (e.doneDate.None? ==> r.value.doneDate == "")
      && r.value.team == e.team
  {
    var f := e.item.fields;
    var target := match f.targetDate
      case Some(t) => if t != "" then PyStrings.Take(t, 10) else ""
      case None => "";
    if f.id.None? then Failure(MissingId)
    else if f.title.None? then Failure(MissingTitle)
    else if f.state.None? then Failure(MissingState)
    else if f.workItemType.None? then Failure(MissingType)
    else Success(ExportRow(
      f.id.value, f.title.value, AssigneeName(f.assignedTo), f.state.value, f.workItemType.value,
      f.productType.GetOr(""), target, e.doingDate.GetOr(""), e.doneDate.GetOr(""), e.team))
  }

  /** All rows of the export file; the first item missing a required field aborts the write. */
  function RenderAll(items: seq<ExportedItem>): (r: Result<seq<ExportRow>, MissingField>)
    ensures r.Success? <==> forall i :: 0 <= i < |items| ==> RenderRow(items[i]).Success?
    ensures r.Success? ==> |r.value| == |items| && forall i :: 0 <= i < |items| ==> r.value[i] == RenderRow(items[i]).value
    ensures r.Failure? ==>
              exists i :: (0 <= i < |items| && RenderRow(items[i]) == Failure(r.error)
                           && forall j :: 0 <= j < i ==> RenderRow(items[j]).Success?)
  {
    if |items| == 0 then Success([])
    else
      match RenderRow(items[0])
      case Failure(err) => Failure(err)
      case Success(row) =>
        var rest := RenderAll(items[1..]);
        assert forall i :: 0 < i < |items| ==> items[1..][i - 1] == items[i];
        match rest
        case Failure(err) =>
          assert exists i :: (0 < i < |items| && RenderRow(items[i]) == Failure(err)
                              && forall j :: 0 <= j < i ==> RenderRow(items[j]).Success?) by {
            var i :| 0 <= i < |items[1..]| && RenderRow(items[1..][i]) == Failure(err)
              && forall j :: 0 <= j < i ==> RenderRow(items[1..][j]).Success?;
            assert forall j :: 0 < j <= i ==> items[j] == items[1..][j - 1];
          }
          Failure(err)
        case Success(rows) => Success([row] + rows)
  }
}

=== FILE: time_log.dfy ===
/**
 * The merge of time_log.py: every work-item ID is joined with the time-log
 * entries the secondary API returned for it, one output row per entry, or
 * one placeholder row when there is none. Product type and state come from
 * the work-item batch answer; the month name is derived from each log's date.
 */
module TimeLog {
  import opened Wrappers
  import PyStrings
  import Batching

  // ---------------------------------------------------------------------------
  // extract_month_name
  // ---------------------------------------------------------------------------

  /** `calendar.month_name`: index 0 is "", then January through December. */
  const MonthNames: seq<string> := [
    "", "January", "February", "March", "April", "May", "June",
    "July", "August", "September", "October", "November", "December"]

  /**
   * The characters Python's int() strips around a number: the ASCII space and
   * tab through carriage return, and the non-ASCII Unicode white space. The
   * ASCII separators 0x1C-0x1F are not stripped.
   */
  predicate IsPySpace(c: char)
  {
    || c == ' ' || '\t' <= c <= '\r'
    || c == '\U{85}' || c == '\U{A0}' || c == '\U{1680}' || '\U{2000}' <= c <= '\U{200A}'
    || c == '\U{2028}' || c == '\U{2029}' || c == '\U{202F}' || c == '\U{205F}' || c == '\U{3000}'
  }

  /** Python's `int(s)` on a two-character string: two digits, a signed digit, or a digit padded by whitespace. */
  function ParseTwoChars(a: char, b: char): (r: Option<int>)
    ensures PyStrings.IsDigit(a) && PyStrings.IsDigit(b) ==> r == Some(PyStrings.DecimalValue([a, b]))
    ensures PyStrings.IsDigit(b) && (IsPySpace(a) || a == '+') ==> r == Some(PyStrings.DigitValue(b))
    ensures PyStrings.IsDigit(b) && a == '-' ==> r == Some(0 - PyStrings.DigitValue(b) as int)
    ensures PyStrings.IsDigit(a) && IsPySpace(b) ==> r == Some(PyStrings.DigitValue(a))
    ensures r.Some? <==>
      || (PyStrings.IsDigit(a) && PyStrings.IsDigit(b))
      || (PyStrings.IsDigit(b) && (IsPySpace(a) || a == '+' || a == '-'))
      || (PyStrings.IsDigit(a) && IsPySpace(b))
    ensures r.Some? ==> -9 <= r.value <= 99
  {
    if PyStrings.IsDigit(a) && PyStrings.IsDigit(b) then
      assert PyStrings.DecimalValue([a, b]) == 10 * PyStrings.DigitValue(a) + PyStrings.DigitValue(b) by {
        assert [a, b][1..] == [b] && [b][1..] == [];
        assert PyStrings.DecimalValue([b]) == PyStrings.DigitValue(b) * PyStrings.Pow10(0) + PyStrings.DecimalValue([]);
        assert PyStrings.DecimalValue([a, b]) == PyStrings.DigitValue(a) * PyStrings.Pow10(1) + PyStrings.DecimalValue([b]);
      }
      Some(10 * PyStrings.DigitValue(a) + PyStrings.DigitValue(b))
    else if PyStrings.IsDigit(b) && (IsPySpace(a) || a == '+') then Some(PyStrings.DigitValue(b))
    else if PyStrings.IsDigit(b) && a == '-' then Some(0 - PyStrings.DigitValue(b) as int)
    else if PyStrings.IsDigit(a) && IsPySpace(b) then Some(PyStrings.DigitValue(a))
    else None
  }

  /** `calendar.month_name[n]`, with Python's negative indexing and "" where IndexError is caught. */
  function MonthNameAt(n: int): (r: string)
    ensures r in MonthNames
    ensures 0 <= n < 13 ==> r == MonthNames[n]
    ensures -13 <= n < 0 ==> r == MonthNames[13 + n]
    ensures n >= 13 || n < -13 ==> r == ""
  {
    if 0 <= n < 13 then MonthNames[n]
    else if -13 <= n < 0 then MonthNames[13 + n]
    else ""
  }

  /** extract_month_name: the name of the month in characters [5:7], "" when that cannot be had. */
  function ExtractMonthName(date: string): (r: string)
    ensures r in MonthNames
    ensures |date| < 7 ==> r == ""
    ensures r != "" ==> |date| >= 7 && (PyStrings.IsDigit(date[5]) || PyStrings.IsDigit(date[6]))
    ensures |date| >= 7 && ParseTwoChars(date[5], date[6]).None? ==> r == ""
  {
    if date == "" || |date| < 7 then ""
    else
      match ParseTwoChars(date[5], date[6])
      case None => ""
      case Some(n) => MonthNameAt(n)
  }

  /**
   * Any string of at least 7 characters with two digits at positions 5 and 6,
   * a `YYYY-MM-DD` date or a longer timestamp alike, gets the name of that
   * month number, and "" for month 00 or 13 and above.
   */
  lemma MonthOfDateField(d: string)
    requires |d| >= 7 && PyStrings.AllDigits(d[5..7])
    ensures 1 <= PyStrings.DecimalValue(d[5..7]) <= 12 ==> ExtractMonthName(d) == MonthNames[PyStrings.DecimalValue(d[5..7])]
    ensures !(1 <= PyStrings.DecimalValue(d[5..7]) <= 12) ==> ExtractMonthName(d) == ""
  {
    assert d[5..7] == [d[5], d[6]];
    assert PyStrings.IsDigit(d[5..7][0]) && PyStrings.IsDigit(d[5..7][1]);
  }

  /** Two dates with month fields in 1..12 share a month name exactly when their month numbers are equal. */
  lemma MonthNameDistinguishesMonths(a: string, b: string)
    requires |a| >= 7 && PyStrings.AllDigits(a[5..7]) && |b| >= 7 && PyStrings.AllDigits(b[5..7])
    requires 1 <= PyStrings.DecimalValue(a[5..7]) <= 12 && 1 <= PyStrings.DecimalValue(b[5..7]) <= 12
    ensures ExtractMonthName(a) == ExtractMonthName(b) <==> PyStrings.DecimalValue(a[5..7]) == PyStrings.DecimalValue(b[5..7])
  {
    MonthOfDateField(a);
    MonthOfDateField(b);
    MonthNamesInjective(PyStrings.DecimalValue(a[5..7]));
    MonthNamesInjective(PyStrings.DecimalValue(b[5..7]));
  }

  /** The month number a name stands for, 0 for anything else. */
  function MonthIndex(name: string): nat
  {
    if name == "January" then 1 else if name == "February" then 2 else if name == "March" then 3
    else if name == "April" then 4 else if name == "May" then 5 else if name == "June" then 6
    else if name == "July" then 7 else if name == "August" then 8 else if name == "September" then 9
    else if name == "October" then 10 else if name == "November" then 11 else if name == "December" then 12
    else 0
  }

  /** Every month name stands for its own number, so no two months share a name. */
  lemma MonthNamesInjective(m: int)
    requires 1 <= m <= 12
    ensures MonthIndex(MonthNames[m]) == m
  {
  }

  /** Examples: a well-formed month, too-short input, and month fields out of range or not numeric. */
  lemma MonthNameExamples()
    ensures ExtractMonthName("2025-03-15") == "March"
    ensures ExtractMonthName("") == "" && ExtractMonthName("2025-0") == ""
    ensures ExtractMonthName("2025-13-01") == ""
    ensures ExtractMonthName("2025-00-01") == ""
    ensures ExtractMonthName("2025-ab-01") == ""
  {
    assert PyStrings.DecimalValue("03") == 3 by {
      assert "03"[1..] == "3";
    }
    assert ParseTwoChars('0', '3') == Some(3);
    assert ParseTwoChars('a', 'b') == None;
  }

  /** A log timestamp longer than a date gets the month of its characters 5..6. */
  lemma MonthNameOfTimestamp()
    ensures ExtractMonthName("2025-03-15T08:00:00") == "March"
  {
    var t := "2025-03-15T08:00:00";
    assert t[5] == '0' && t[6] == '3';
    assert ParseTwoChars('0', '3') == Some(3);
  }

  /**
   * What int() and negative indexing make of a padded or signed month field,
   * and two fields int() rejects: a digit beside a letter, and a digit after
   * the ASCII separator 0x1C, which int() does not strip.
   */
  lemma MonthNameIntQuirks()
    ensures ExtractMonthName("2025- 3-15") == "March"
    ensures ExtractMonthName("2025--1-05") == "December"
    ensures ExtractMonthName("2025-3x-01") == ""
    ensures ExtractMonthName("2025-\U{1C}3-01") == ""
  {
    var a := "2025- 3-15";
    assert a[5] == ' ' && a[6] == '3';
    assert ParseTwoChars(' ', '3') == Some(3);
    var b := "2025--1-05";
    assert b[5] == '-' && b[6] == '1';
    assert ParseTwoChars('-', '1') == Some(-1);
    var c := "2025-3x-01";
    assert c[5] == '3' && c[6] == 'x';
    assert ParseTwoChars('3', 'x') == None;
    var d := "2025-\U{1C}3-01";
    assert d[5] == '\U{1C}' && d[6] == '3';
    assert ParseTwoChars('\U{1C}', '3') == None;
  }


  // ---------------------------------------------------------------------------
  // id_to_info
  // ---------------------------------------------------------------------------

  /** One element of the batch answer: the work-item ID and its optional product type and state. */
  datatype BatchRecord = BatchRecord(id: int, productType: Option<string>, state: Option<string>)

  /** The product type and state kept for one work item. */
  datatype Info = Info(productType: string, state: string)

  /** The info of an ID the batch answer did not mention. */
  const NoInfo := Info("", "")

  function InfoOf(rec: BatchRecord): Info
  {
    Info(rec.productType.GetOr(""), rec.state.GetOr(""))
  }

  /** The `id_to_info` loop: one entry per record, in record order, a later record replacing an earlier one. */
  function IdToInfo(records: seq<BatchRecord>): (m: map<int, Info>)
    ensures m.Keys == set i | 0 <= i < |records| :: records[i].id
  {
    if |records| == 0 then map[]
    else
      var last := records[|records| - 1];
      var init := records[..|records| - 1];
      var before := IdToInfo(init);
      assert (set i | 0 <= i < |records| :: records[i].id) == (set i | 0 <= i < |init| :: init[i].id) + {last.id} by {
        forall i | 0 <= i < |init|
          ensures init[i].id in (set i | 0 <= i < |records| :: records[i].id)
        {
          assert init[i] == records[i];
        }
      }
      before[last.id := InfoOf(last)]
  }

  /** For a duplicated ID the last record seen wins. */
  lemma {:induction false} IdToInfoLastWins(records: seq<BatchRecord>, i: nat)
    requires i < |records|
    requires forall j :: i < j < |records| ==> records[j].id != records[i].id
    ensures records[i].id in IdToInfo(records)
    ensures IdToInfo(records)[records[i].id] == InfoOf(records[i])
  {
    if i < |records| - 1 {
      var init := records[..|records| - 1];
      forall j | i < j < |init|
        ensures init[j].id != init[i].id
      {
        assert init[j] == records[j];
      }
      IdToInfoLastWins(init, i);
    }
  }

  // ---------------------------------------------------------------------------
  // Collecting the worker pool's results
  // ---------------------------------------------------------------------------

  /** One time-log entry as its CSV cells; a missing or null value reads as "". */
  type LogEntry = map<string, string>

  /** The ID-to-logs map built from the finished futures, each one recorded in the order they finished. */
  function CollectResults(completions: seq<(int, seq<LogEntry>)>): (results: map<int, seq<LogEntry>>)
    ensures results.Keys == CompletedIds(completions)
    ensures |completions| > 0 ==> results[completions[|completions| - 1].0] == completions[|completions| - 1].1
  {
    if |completions| == 0 then map[]
    else
      var last := completions[|completions| - 1];
      CollectResults(completions[..|completions| - 1])[last.0 := last.1]
  }

  function CompletedIds(completions: seq<(int, seq<LogEntry>)>): set<int>
  {
    set i | 0 <= i < |completions| :: completions[i].0
  }

  /**
   * Whatever order the futures finish in, the collected map holds, for each
   * ID that finished, the logs fetched for it: each future's answer is a
   * function of its ID alone.
   */
  lemma {:induction false} CollectResultsOrderFree(completions: seq<(int, seq<LogEntry>)>, logsOf: int -> seq<LogEntry>)
    requires forall i :: 0 <= i < |completions| ==> completions[i].1 == logsOf(completions[i].0)
    ensures CollectResults(completions) == map w | w in CompletedIds(completions) :: logsOf(w)
  {
    if |completions| > 0 {
      var init := completions[..|completions| - 1];
      var last := completions[|completions| - 1];
      CollectResultsOrderFree(init, logsOf);
      assert CompletedIds(completions) == CompletedIds(init) + {last.0} by {
        forall i | 0 <= i < |init|
          ensures init[i].0 in CompletedIds(completions)
        {
          assert init[i] == completions[i];
        }
      }
    }
  }

  // ---------------------------------------------------------------------------
  // Output rows
  // ---------------------------------------------------------------------------

  /** The columns of the merged file. */
  datatype Column =
    | WorkItemIdCol | ProductTypeCol | CommentCol | WeekCol | TimeTypeDescriptionCol
    | MinutesCol | DateCol | MonthCol | UserNameCol | CreatedOnCol | CreatedByCol
    | UpdatedOnCol | UpdatedByCol | DeletedOnCol | DeletedByCol | TimesheetStateCol

  /** The header text of a column, which is also the key a log entry uses for it. */
  function ColumnName(c: Column): string
  {
    match c
    case WorkItemIdCol => "workItemId"
    case ProductTypeCol => "ProductType"
    case CommentCol => "comment"
    case WeekCol => "week"
    case TimeTypeDescriptionCol => "timeTypeDescription"
    case MinutesCol => "minutes"
    case DateCol => "date"
    case MonthCol => "month"
    case UserNameCol => "userName"
    case CreatedOnCol => "createdOn"
    case CreatedByCol => "createdBy"
    case UpdatedOnCol => "updatedOn"
    case UpdatedByCol => "updatedBy"
    case DeletedOnCol => "deletedOn"
    case DeletedByCol => "deletedBy"
    case TimesheetStateCol => "timesheet_state"
  }

  /** CSV_FIELDNAMES: the merged file's columns in header order. */
  const CsvFieldNames: seq<Column> := [
    WorkItemIdCol, ProductTypeCol, CommentCol, WeekCol, TimeTypeDescriptionCol,
    MinutesCol, DateCol, MonthCol, UserNameCol, CreatedOnCol, CreatedByCol,
    UpdatedOnCol, UpdatedByCol, DeletedOnCol, DeletedByCol, TimesheetStateCol]

  /** The header row as text. */
  function Header(): (h: seq<string>)
    ensures |h| == |CsvFieldNames|
    ensures forall i :: 0 <= i < |h| ==> h[i] == ColumnName(CsvFieldNames[i])
  {
    seq(|CsvFieldNames|, i requires 0 <= i < |CsvFieldNames| => ColumnName(CsvFieldNames[i]))
  }

  /** The header lists every column exactly once. */
  lemma HeaderListsEveryColumn(c: Column)
    ensures c in CsvFieldNames
    ensures forall i, j :: 0 <= i < j < |CsvFieldNames| ==> CsvFieldNames[i] != CsvFieldNames[j]
  {
  }

  /**
   * Columns a log row reads from its log entry and keeps. The source's
   * comprehension skips workItemId, ProductType and month (and a 'state'
   * key that names no column); timesheet_state is read and then overwritten.
   */
  predicate IsLogColumn(c: Column)
  {
    !(c.WorkItemIdCol? || c.ProductTypeCol? || c.MonthCol? || c.TimesheetStateCol?)
  }

  /** Columns filled from the work item rather than from a log. */
  predicate IsWorkItemColumn(c: Column)
  {
    c.WorkItemIdCol? || c.ProductTypeCol? || c.TimesheetStateCol?
  }

  /** A cell of the merged file: log and work-item text, or the integer work-item ID. */
  datatype Cell = Text(s: string) | WorkItemId(id: int)

  /** One row of the merged file, one field per column in header order. */
  datatype MergedRow = MergedRow(
    workItemId: int,
    productType: string,
    comment: string,
    week: string,
    timeTypeDescription: string,
    minutes: string,
    date: string,
    month: string,
    userName: string,
    createdOn: string,
    createdBy: string,
    updatedOn: string,
    updatedBy: string,
    deletedOn: string,
    deletedBy: string,
    timesheetState: string)

  /** The cell a row holds under a column. */
  function CellOf(row: MergedRow, c: Column): Cell
  {
    match c
    case WorkItemIdCol => WorkItemId(row.workItemId)
    case ProductTypeCol => Text(row.productType)
    case CommentCol => Text(row.comment)
    case WeekCol => Text(row.week)
    case TimeTypeDescriptionCol => Text(row.timeTypeDescription)
    case MinutesCol => Text(row.minutes)
    case DateCol => Text(row.date)
    case MonthCol => Text(row.month)
    case UserNameCol => Text(row.userName)
    case CreatedOnCol => Text(row.createdOn)
    case CreatedByCol => Text(row.createdBy)
    case UpdatedOnCol => Text(row.updatedOn)
    case UpdatedByCol => Text(row.updatedBy)
    case DeletedOnCol => Text(row.deletedOn)
    case DeletedByCol => Text(row.deletedBy)
    case TimesheetStateCol => Text(row.timesheetState)
  }

  /** The log's value for a column, "" when the log lacks it. */
  function Lookup(log: LogEntry, k: string): string
  {
    if k in log then log[k] else ""
  }

  /** The row carries the work item's ID, product type and state. */
  predicate CarriesWorkItem(row: MergedRow, wid: int, info: Info)
  {
    row.workItemId == wid && row.productType == info.productType && row.timesheetState == info.state
  }

  /** The row written for one log entry of work item `wid`. */
  function LogRow(wid: int, info: Info, log: LogEntry): (row: MergedRow)
    ensures CarriesWorkItem(row, wid, info)
    ensures forall c :: IsLogColumn(c) ==> CellOf(row, c) == Text(Lookup(log, ColumnName(c)))
    ensures row.month == ExtractMonthName(row.date)
  {
    var date := Lookup(log, ColumnName(DateCol));
    MergedRow(
      wid, info.productType, Lookup(log, ColumnName(CommentCol)), Lookup(log, ColumnName(WeekCol)),
      Lookup(log, ColumnName(TimeTypeDescriptionCol)), Lookup(log, ColumnName(MinutesCol)), date,
      ExtractMonthName(date), Lookup(log, ColumnName(UserNameCol)),
      Lookup(log, ColumnName(CreatedOnCol)), Lookup(log, ColumnName(CreatedByCol)),
      Lookup(log, ColumnName(UpdatedOnCol)), Lookup(log, ColumnName(UpdatedByCol)),
      Lookup(log, ColumnName(DeletedOnCol)), Lookup(log, ColumnName(DeletedByCol)), info.state)
  }

  /** The placeholder row of a work item with no logs: every column but the work item's own is "". */
  function PlaceholderRow(wid: int, info: Info): (row: MergedRow)
    ensures CarriesWorkItem(row, wid, info)
    ensures forall c :: !IsWorkItemColumn(c) ==> CellOf(row, c) == Text("")
  {
    MergedRow(wid, info.productType, "", "", "", "", "", "", "", "", "", "", "", "", "", info.state)
  }

  /** The logs collected for an ID, none when the pool returned nothing for it. */
  function LogsFor(wid: int, results: map<int, seq<LogEntry>>): seq<LogEntry>
  {
    if wid in results then results[wid] else []
  }

  /** The info of an ID, NoInfo when the batch answer did not mention it. */
  function InfoFor(wid: int, idToInfo: map<int, Info>): Info
  {
    if wid in idToInfo then idToInfo[wid] else NoInfo
  }

  function Max1(n: nat): nat
  {
    if n == 0 then 1 else n
  }

  /** The rows written for one work item: one per log in API order, or the placeholder alone. */
  function RowsFor(wid: int, idToInfo: map<int, Info>, results: map<int, seq<LogEntry>>): (rows: seq<MergedRow>)
    ensures |rows| == Max1(|LogsFor(wid, results)|)
    ensures forall i :: 0 <= i < |rows| ==> CarriesWorkItem(rows[i], wid, InfoFor(wid, idToInfo))
    ensures forall i :: 0 <= i < |LogsFor(wid, results)| ==>
      rows[i] == LogRow(wid, InfoFor(wid, idToInfo), LogsFor(wid, results)[i])
    ensures |LogsFor(wid, results)| == 0 ==> rows == [PlaceholderRow(wid, InfoFor(wid, idToInfo))]
  {
    var logs := LogsFor(wid, results);
    var info := InfoFor(wid, idToInfo);
    if |logs| > 0 then seq(|logs|, i requires 0 <= i < |logs| => LogRow(wid, info, logs[i]))
    else [PlaceholderRow(wid, info)]
  }

  /** The number of rows the join should write: max(1, number of logs) per ID. */
  function ExpectedRows(ids: seq<int>, results: map<int, seq<LogEntry>>): nat
  {
    if |ids| == 0 then 0 else Max1(|LogsFor(ids[0], results)|) + ExpectedRows(ids[1..], results)
  }

  /** The write loop over `all_ids`: each ID's rows in turn. */
  function Merge(ids: seq<int>, idToInfo: map<int, Info>, results: map<int, seq<LogEntry>>): (rows: seq<MergedRow>)
    ensures |rows| == ExpectedRows(ids, results)
  {
    if |ids| == 0 then [] else RowsFor(ids[0], idToInfo, results) + Merge(ids[1..], idToInfo, results)
  }

  /** Output follows ID order: the rows of a concatenation are the rows of its parts, in order. */
  lemma {:induction false} MergeAppend(a: seq<int>, b: seq<int>, idToInfo: map<int, Info>, results: map<int, seq<LogEntry>>)
    ensures Merge(a + b, idToInfo, results) == Merge(a, idToInfo, results) + Merge(b, idToInfo, results)
  {
    if |a| == 0 {
      assert a + b == b;
    } else {
      assert (a + b)[1..] == a[1..] + b;
      MergeAppend(a[1..], b, idToInfo, results);
    }
  }

  /** The IDs that occur in a set of rows. */
  function RowIds(rows: seq<MergedRow>): set<int>
  {
    set r | r in rows :: r.workItemId
  }

  /**
   * Every work item appears downstream, and nothing else does: the
   * workItemId cells of the output are exactly the input IDs.
   */
  lemma {:induction false} MergeCoversIds(ids: seq<int>, idToInfo: map<int, Info>, results: map<int, seq<LogEntry>>)
    ensures RowIds(Merge(ids, idToInfo, results)) == set w | w in ids
  {
    if |ids| > 0 {
      MergeCoversIds(ids[1..], idToInfo, results);
      var head := RowsFor(ids[0], idToInfo, results);
      var tail := Merge(ids[1..], idToInfo, results);
      assert RowIds(head) == {ids[0]} by {
        assert head[0] in head;
      }
      assert RowIds(head + tail) == RowIds(head) + RowIds(tail);
      assert (set w | w in ids) == {ids[0]} + (set w | w in ids[1..]) by {
        assert ids == [ids[0]] + ids[1..];
      }
    }
  }

  // ---------------------------------------------------------------------------
  // The whole merge
  // ---------------------------------------------------------------------------

  /**
   * A finishing order of the pool for `ids`: the futures' IDs are the
   * submitted IDs, and each future carries the logs fetched for its ID.
   */
  ghost predicate IsCompletionOrder(completions: seq<(int, seq<LogEntry>)>, ids: seq<int>, logsOf: int -> seq<LogEntry>)
  {
    && CompletedIds(completions) == (set i | 0 <= i < |ids| :: ids[i])
    && forall i :: 0 <= i < |completions| ==> completions[i].1 == logsOf(completions[i].0)
  }

  /** main(): batch-fetch the work items, build id_to_info, collect the pool's results, write the rows. */
  function MergeRun(ids: seq<int>, fetchBatch: seq<int> -> seq<BatchRecord>, completions: seq<(int, seq<LogEntry>)>): seq<MergedRow>
  {
    var idToInfo := IdToInfo(Batching.BatchFetch(ids, fetchBatch));
    Merge(ids, idToInfo, CollectResults(completions))
  }

  /** The same merge fetching each ID's logs in turn, without a pool. */
  function SequentialRun(ids: seq<int>, fetchBatch: seq<int> -> seq<BatchRecord>, logsOf: int -> seq<LogEntry>): seq<MergedRow>
  {
    var idToInfo := IdToInfo(Batching.BatchFetch(ids, fetchBatch));
    Batching.FlatMap(ids, wid => RowsFor(wid, idToInfo, map[wid := logsOf(wid)]))
  }

  /**
   * The pool changes only latency: for any finishing order the rows are
   * those of the sequential variant, so any two orders give the same rows.
   */
  lemma PoolOrderIrrelevant(ids: seq<int>, fetchBatch: seq<int> -> seq<BatchRecord>, logsOf: int -> seq<LogEntry>, completions: seq<(int, seq<LogEntry>)>)
    requires IsCompletionOrder(completions, ids, logsOf)
    ensures MergeRun(ids, fetchBatch, completions) == SequentialRun(ids, fetchBatch, logsOf)
  {
    CollectResultsOrderFree(completions, logsOf);
    var all := set i | 0 <= i < |ids| :: ids[i];
    var idToInfo := IdToInfo(Batching.BatchFetch(ids, fetchBatch));
    MergeIsPerIdSet(ids, all, idToInfo, logsOf);
  }

  lemma {:induction false} MergeIsPerIdSet(ids: seq<int>, all: set<int>, idToInfo: map<int, Info>, logsOf: int -> seq<LogEntry>)
    requires forall i :: 0 <= i < |ids| ==> ids[i] in all
    ensures Merge(ids, idToInfo, map w | w in all :: logsOf(w))
         == Batching.FlatMap(ids, wid => RowsFor(wid, idToInfo, map[wid := logsOf(wid)]))
  {
    if |ids| > 0 {
      MergeIsPerIdSet(ids[1..], all, idToInfo, logsOf);
    }
  }
}

=== FILE: upload.dfy ===
/**
 * The schema the upload script declares for a dataset: one column per
 * header entry of the file, typed DATETIME when its name is in the
 * dataset's date-time set and STRING otherwise.
 */
module Upload {
  import TimeLog

  /** The two column types the upload uses. */
  datatype ColumnType = STRING | DATETIME

  /** One column of the dataset schema: its type and its name. */
  datatype SchemaColumn = SchemaColumn(columnType: ColumnType, name: string)

  /** The date-time columns of the time-sheet dataset. */
  const TimesheetDateTimeColumns: set<string> := {"date", "createdOn", "updatedOn", "deletedOn"}

  /** The declared Domo type of a column: DATETIME for the names listed as date-time columns, STRING for every other name. */
  function GetColumnType(name: string, dateTimeColumns: set<string>): (t: ColumnType)
    ensures t == DATETIME <==> name in dateTimeColumns
    ensures t == STRING <==> name !in dateTimeColumns
  {
    if name in dateTimeColumns then DATETIME else STRING
  }

  /** The dataset schema: one column per header name, in header order, typed by GetColumnType. */
  function Schema(headers: seq<string>, dateTimeColumns: set<string>): (cols: seq<SchemaColumn>)
    ensures |cols| == |headers|
    ensures forall i :: 0 <= i < |cols| ==> cols[i].columnType == GetColumnType(headers[i], dateTimeColumns)
  {
    if |headers| == 0 then []
    else [SchemaColumn(GetColumnType(headers[0], dateTimeColumns), headers[0])] + Schema(headers[1..], dateTimeColumns)
  }

  function Names(cols: seq<SchemaColumn>): seq<string>
  {
    if |cols| == 0 then [] else [cols[0].name] + Names(cols[1..])
  }

  /** The schema names the columns exactly as the header does, in header order. */
  lemma {:induction false} SchemaKeepsHeader(headers: seq<string>, dateTimeColumns: set<string>)
    ensures Names(Schema(headers, dateTimeColumns)) == headers
  {
    if |headers| > 0 {
      SchemaKeepsHeader(headers[1..], dateTimeColumns);
    }
  }

  /** Which columns of the merged file hold dates and times. */
  predicate IsTimestampColumn(c: TimeLog.Column)
  {
    c.DateCol? || c.CreatedOnCol? || c.UpdatedOnCol? || c.DeletedOnCol?
  }

  lemma TimesheetColumnNames(c: TimeLog.Column)
    ensures TimeLog.ColumnName(c) in TimesheetDateTimeColumns <==> IsTimestampColumn(c)
  {
  }

  /**
   * For the merged time-sheet file only date, createdOn, updatedOn and
   * deletedOn are typed DATETIME; the other twelve columns are STRING.
   */
  lemma TimesheetSchema()
    ensures var cols := Schema(TimeLog.Header(), TimesheetDateTimeColumns);
      && |cols| == 16
      && forall i :: 0 <= i < 16 ==>
           (cols[i].columnType == DATETIME <==> IsTimestampColumn(TimeLog.CsvFieldNames[i]))
  {
    forall i | 0 <= i < 16
      ensures TimeLog.Header()[i] in TimesheetDateTimeColumns <==> IsTimestampColumn(TimeLog.CsvFieldNames[i])
    {
      TimesheetColumnNames(TimeLog.CsvFieldNames[i]);
    }
  }
}

=== FILE: wrappers.dfy ===
/** Option and Result, the two failure-carrying shapes the model uses. */
module Wrappers {

  /** A value that may be absent: Python's `None` or a missing dict key. */
  datatype Option<+T> = None | Some(value: T) {

    /** The carried value, or `default` when absent (Python's `d.get(k, default)`). */
    function GetOr(default: T): T {
      match this
      case Some(v) => v
      case None => default
    }
  }

  /** Either a value or the error that an exception in the source would carry. */
  datatype Result<+R, +E> = Success(value: R) | Failure(error: E)
}
